=== FILE: README.md ===
# magogenie-channel import pipeline, modelled in Dafny

`magogenie.py` fetches the Magogenie quiz tree and its questions and hands a
nested topic tree to a content-publishing library. Between the fetch and the
hand-off it runs a small deterministic pipeline. This project models that
pipeline and proves properties of it:

- **Id batching** (`chunking.dfy`): a topic's question ids are split into
  batches of six before they are fetched.
- **Record conversion** (`records.dfy`, `images.dfy`): the decoded response of
  one batch is turned into question dicts. Records are filtered by the id
  denylist, by `success` and by a known `answer_type`. Image paths and base64
  data URIs in the text are rewritten to Markdown images. The answer list and
  the correct answer(s) are derived from `possible_answers`.
- **Difficulty grouping** (`levels.dfy`, `topics.dfy`): a topic's converted
  batches are concatenated and sorted by string id. They are then split into
  one `level<d>` exercise per difficulty, in order of first appearance, and
  the exercises are appended to the topic's children.
- **Tree build** (`topics.dfy`): `build_magogenie_tree` links each topic into
  its parent's `children` in place and returns the root topics. Topics are a
  class whose `children` field the build updates. Children are shared
  objects, not copies.
- **Question dispatch** (`dispatch.dfy`): `create_question` maps a question
  dict's `type` to a question kind. An unknown type or a missing key is an
  error.

Support modules: `wrappers.dfy` (Option, Result), `pystr.dfy` (Python `str()`
of an int, string ordering, substring test), `seqs.dfy` (`itertools.chain`,
stable `sorted` by a string key, filtering), `exercises.dfy` (the le_utils
constants the script uses).

Both Python `IndexError`s are modelled as `Failure` results, exactly where the
code raises them. The first is `possible_answers[0]` on an empty list. It is
read before `success` is checked, so even an unsuccessful record with no
answers aborts its batch. The second is `correct_answer[0]` for a radio
question with no correct option. Sort keys are strings, so ids order
lexicographically: "10" sorts before "9" (`PyStr.NotNumericOrder`).

## Model

| member | source | states |
|---|---|---|
| `Chunking.Chunks` | magogenie.py:136 | there are ceil(n/6) batches; each holds 1 to 6 ids, and only the last may hold fewer than 6 |
| `Chunking.ChunksFlatten` | magogenie.py:136 | concatenating the batches gives back the id list |
| `Images.RewriteAssets` | magogenie.py:59 | every matched asset path becomes a plain run holding its image link; every other run is unchanged |
| `Images.RewriteDataUris` | magogenie.py:60 | every matched data URI d becomes the plain run `![](d)`; every other run is unchanged |
| `Images.ImageLink` | magogenie.py:59 | the replacement for a matched asset path: the url is put in front unless it already occurs in the path, and the result is wrapped as `![](...)` (its shape is stated by `ImageLinkShape`) |
| `Images.DataUriLink` | magogenie.py:60 | the replacement for a matched data URI d: `![](d)` |
| `Images.Clean` | magogenie.py:59-60 | both substitutions in source order, image paths first, as one string (run by run by `CleanSegment` and `CleanAppend`) |
| `Images.ImageLinkShape` | magogenie.py:59 | a rewritten path is `![](...)` and contains both the url and the matched path, whichever branch was taken |
| `Images.ImageLinkNoDoubleUrl` | magogenie.py:59 | a path that already contains the url is only wrapped: the url is not added a second time |
| `Images.CleanSegment` | magogenie.py:66-68 | cleaned text: a plain run is unchanged, a path becomes its image link, a data URI becomes `![](d)` |
| `Images.CleanUnmatched` | magogenie.py:59-60 | text in which neither expression matched comes out unchanged |
| `Images.CleanAppend` | magogenie.py:66-68 | cleaning works run by run: the cleaned concatenation is the concatenation of the cleaned parts |
| `Images.CleanLeavesOnlyPlain` | magogenie.py:59-60 | after both substitutions no matched run remains |
| `Records.ConvertRecord` | magogenie.py:48-83 | an empty answer list is an error; otherwise a question is produced iff the first answer's question id is not denylisted, `success` holds and the answer type is known (and, for radio, some answer is correct); a radio with no correct answer is the other error; every other record yields nothing |
| `Records.AnswerTypeKey` | magogenie.py:24-30 | the five known answer types, each with its answer field and question kind, and `all_answers` only for radio and multiple_select |
| `Records.Denylist` | magogenie.py:51 | the five question ids that are skipped |
| `Records.Admitted` | magogenie.py:53-57 | a record yields a question only if its first answer's question id is not denylisted, `success` holds and its answer type is known |
| `Records.AsDict` | magogenie.py:58-79 | the question dict has exactly the keys id, question, type, the answer field and difficulty_level, plus all_answers when present; difficulty_level holds the record's difficulty |
| `Records.CleanAnswers` | magogenie.py:63-69 | one rewritten answer for each possible answer, in order |
| `Records.CorrectAnswers` | magogenie.py:64-71 | the rewritten answers marked correct, in order; never more than the possible answers |
| `Records.CorrectAnswersEmpty` | magogenie.py:70-74 | the correct-answer list is empty exactly when no possible answer is marked correct |
| `Records.RewriteAnswers` | magogenie.py:63-71 | the loop returns all rewritten answers and, in order, the rewritten answers marked correct |
| `Records.QuestionList` | magogenie.py:41-85 | the record loop returns exactly `ConvertAll`: the questions in record order, or the first error |
| `Records.ConvertAll` | magogenie.py:48-85 | the record loop as a function: the questions of the records in order, or the first record's error (stated by `ConvertAllAppend`, `ConvertAllSucceeds`, `ConvertAllMembers`) |
| `Records.ConvertAllStops` | magogenie.py:53-74 | once a record raises, the batch's result is that record's error |
| `Records.ConvertedFields` | magogenie.py:58-79 | a produced dict has keys id, question, type, its answer field and difficulty_level, plus all_answers exactly for radio and multiple_select; id is the printed question id, type and answer field come from ANSWER_TYPE_KEY, difficulty is copied |
| `Records.CorrectIsSubsequence` | magogenie.py:65-71 | the correct answers are a subsequence of all answers |
| `Records.StoredAnswer` | magogenie.py:73-78 | radio stores the first answer marked correct; other types store the whole list of correct answers |
| `Records.ConvertAllAppend` | magogenie.py:48-85 | converting a concatenation is converting the parts and concatenating; the first part's error wins |
| `Records.ConvertAllSucceeds` | magogenie.py:48-85 | a batch converts without error iff every record does |
| `Records.ConvertAllMembers` | magogenie.py:48-85 | the batch's questions are exactly those its admitted records produce |
| `Levels.FirstAppearance` | magogenie.py:154-158 | the level keys are the difficulties present, each exactly once |
| `Levels.LevelName` | magogenie.py:157 | `'level' + str(d)`, the id and title of a level (injective by `LevelNameInjective`) |
| `Levels.MakeLevel` | magogenie.py:158-159 | the level dict of difficulty d: its name, the questions of difficulty d in order, the fixed mastery model and license |
| `Levels.OfLevel` | magogenie.py:159 | a level's questions: at most the input, each of difficulty d (and exactly those, in order, by `OfLevelMembership`) |
| `Levels.Grouped` | magogenie.py:154-164 | one level per difficulty present, in first-appearance order |
| `Levels.CollectLevels` | magogenie.py:154-159 | the loop leaves one level per difficulty, keys in first-appearance order, each holding that difficulty's questions |
| `Levels.GroupByLevel` | magogenie.py:151-163 | the levels, in insertion order, are `Grouped(qs)` |
| `Levels.OfLevelMembership` | magogenie.py:159 | a question is in the level of its own difficulty and in no other |
| `Levels.OfLevelSorted` | magogenie.py:149-159 | a level of an id-sorted list is id-sorted |
| `Levels.LevelNameInjective` | magogenie.py:157 | distinct difficulties give distinct `level<d>` names |
| `Levels.GroupOfQuestion` | magogenie.py:154-159 | each question lands in exactly one level, the one named after its difficulty; level ids are distinct |
| `Levels.GroupedSorted` | magogenie.py:149-159 | within every level, questions keep ascending string-id order |
| `Levels.FirstAppearanceOrder` | magogenie.py:154-158 | levels come in the order their difficulties first occur |
| `Levels.GroupedPartition` | magogenie.py:154-159 | together the levels hold each question exactly as often as the input does |
| `Topics.Topic.constructor` | magogenie.py:125-133 | a new topic has the given id, ancestry and title, the fixed license and mastery model, and no children |
| `Topics.Topic.AddLevels` | magogenie.py:164-165 | the levels are appended, in order, after the existing children |
| `Topics.ConvertBatchesFlatten` | magogenie.py:141-147 | converting the batches and chaining the results equals converting all fetched records at once |
| `Topics.ConvertBatches` | magogenie.py:138-143 | `p.map(question_list, ...)` taken in batch order: the converted batches, or the first batch's error |
| `Topics.FetchAll` | magogenie.py:141 | one fetched response per batch of ids, in batch order; the fetch of magogenie.py:43-46 is a parameter |
| `Topics.CollectQuestions` | magogenie.py:136-147 | a topic's ids batched in sixes, fetched, converted and chained |
| `Topics.TopicLevels` | magogenie.py:149-163 | the levels of a topic: its questions sorted by string id, then grouped by difficulty |
| `Topics.CollectIsConvertAll` | magogenie.py:136-147 | converting a topic's batches one by one and chaining the results equals converting all its fetched records at once, in batch order |
| `Topics.TopicLevelsSpec` | magogenie.py:147-165 | a topic's levels partition its questions by difficulty, have distinct ids and list questions in ascending string-id order |
| `Topics.FillTopic` | magogenie.py:134-166 | on success the topic's children gain exactly the levels of its sorted questions; a batch error propagates and leaves the topic unchanged |
| `Topics.IdIndex` | magogenie.py:188 | the id index holds exactly the ids of the batch, each mapped to a topic of the batch with that id |
| `Topics.IdIndexLast` | magogenie.py:188 | for a repeated id the index holds the last topic with it |
| `Topics.BuildTree` | magogenie.py:184-197 | returns the roots of the id-sorted batch; each topic that the id index holds for its id gains, after its existing children, the topics whose ancestry names that id, in sorted order; a topic the index does not hold (an earlier duplicate id) gains nothing |
| `Topics.RootsSpec` | magogenie.py:195 | the result is exactly the topics without ancestry, in ascending string-id order |
| `Topics.ParentOf` | magogenie.py:190-191 | the parent a topic is attached to: the indexed topic its ancestry names, when that id is in the batch |
| `Topics.Adopted` | magogenie.py:189-193 | the topics appended to one parent: only topics of the batch whose indexed parent is that topic |
| `Topics.Roots` | magogenie.py:195 | the topics without ancestry, in the order given |
| `Topics.ParentLink` | magogenie.py:189-193 | a topic whose ancestry is in the batch goes under exactly one parent, the indexed topic with that id, and is not a root |
| `Topics.Orphan` | magogenie.py:190 | a topic whose ancestry is not in the batch is neither a root nor under any parent |
| `Topics.AdoptedSorted` | magogenie.py:186-193 | each parent receives its new children in ascending string-id order |
| `Dispatch.CreateQuestion` | magogenie.py:254-290 | succeeds iff the type is one of the five kinds and every key that kind reads is present; the result is of that kind with the dict's id; an unknown type gives UnknownQuestionTypeError; a missing key gives KeyError for the first absent key read |
| `Dispatch.Lookup` | magogenie.py:255-288 | `raw_question[key]`: the key's value when present, otherwise KeyError naming that key |
| `Dispatch.Get` | magogenie.py:261-282 | `raw_question.get("hints")`: the value when present, otherwise nothing |
| `Dispatch.RequiredFields` | magogenie.py:255-288 | the keys each branch reads with `[]`, in argument order: `id` first, never `type` or `hints`, no key twice |
| `Dispatch.ToRaw` | magogenie.py:254-288 | the dict a question object is built from: it carries the object's kind as `type` and its id |
| `Dispatch.CreateQuestionInvertsToRaw` | magogenie.py:254-288 | dispatch recovers every question object from the dict that holds its type and fields |
| `Dispatch.CreateQuestionBuilds` | magogenie.py:254-288 | for each known type the object is the constructor call of that branch on the dict's own values, with `hints` from `get` |
| `Dispatch.CreateQuestionCarriesFields` | magogenie.py:254-288 | every entry of the built object's dict (type, fields read, hints) is an entry of the input dict, whatever else the input holds |
| `Dispatch.CreateQuestionKeepsFields` | magogenie.py:254-288 | the built object keeps `type`, every field its kind reads, and `hints` exactly when the input has them (not for Perseus) |
| `Dispatch.ConvertedQuestionDispatches` | magogenie.py:254-283 | every converted dict dispatches: radio to single select, multiple_select to multiple select, number and text to input, subjective to free response |
| `PyStr.IntToString` | magogenie.py:58 | Python `str()` of an int: non-empty, with a leading '-' exactly for negatives |
| `PyStr.IntToStringInjective` | magogenie.py:157 | distinct ints print differently |
| `PyStr.NotNumericOrder` | magogenie.py:149 | string ids sort lexicographically: "10" comes before "9" |
| `PyStr.StrLe` | magogenie.py:149 | Python's string `<=`: lexicographic by code point (a total order by `StrLeTotal`, `StrLeTransitive`, `StrLeAntisymmetric`) |
| `PyStr.Occurs` | magogenie.py:59 | Python's `needle in hay` on strings: some position of hay starts with needle |
| `PyStr.StrLeReflexive` | magogenie.py:149 | every string is `<=` itself |
| `PyStr.StrLeTotal` | magogenie.py:149 | any two strings are comparable |
| `PyStr.StrLeTransitive` | magogenie.py:149 | string `<=` is transitive |
| `PyStr.StrLeAntisymmetric` | magogenie.py:149 | two strings each `<=` the other are equal |
| `Seqs.SortByIsSorted` | magogenie.py:149 | `sorted` by a string key yields ascending keys |
| `Seqs.SortByPermutes` | magogenie.py:149 | `sorted` neither drops nor duplicates items |
| `Seqs.SortByStable` | magogenie.py:186 | `sorted` is stable: items with equal keys keep their relative order |
| `Seqs.FlattenAppend` | magogenie.py:147 | chaining distributes over concatenation |
| `Seqs.Flatten` | magogenie.py:147 | `itertools.chain`: the batches one after the other |
| `Seqs.SortBy` | magogenie.py:149 | `sorted(..., key=...)`: sorted, a permutation and stable by `SortByIsSorted`, `SortByPermutes`, `SortByStable` |
| `Seqs.KeepWhere` | magogenie.py:195 | a list comprehension with a condition: the items that satisfy it, in order |
| `Seqs.SelectIsSubsequence` | magogenie.py:70-71 | keeping the marked items yields a subsequence |
| `Seqs.KeepWhereSorted` | magogenie.py:195 | a list comprehension filter keeps the order of what it keeps |

## Left out

- HTTP fetching and JSON decoding (`urlopen`, `TREE_URL`, `QUESTION_URL`, magogenie.py:43-46 and 89-91) are not modelled. A batch's decoded response is the input `seq<RawRecord>`, and `FillTopic` takes the fetch as a function parameter `Fetch`.
- `multiprocessing.Pool` (magogenie.py:138-143) is modelled as a sequential map over the batches. When several batches fail, the model reports the first failing batch's error; `Pool.map` may surface another one.
- The regular-expression engine (magogenie.py:36-37) is not modelled. A text arrives as plain runs and the runs each expression matched. The base64 expression runs on the output of the image substitution; the model assumes its matches are the data-URI runs of the original text, that is, a rewritten image link creates no new base64 match.
- `get_magogenie_info_url`'s hard-coded board and standard loops, printing and timestamps (magogenie.py:87-181) are orchestration and are left out. This includes building the raw topic dict, where a falsy `ancestry` becomes None (magogenie.py:125-133); `Topic` takes the id as a string and the ancestry as an `Option<string>`, with `None` for no ancestry. It also includes keeping only the last subject's tree in `result` (magogenie.py:168-170).
- `construct_channel`, `_build_tree`, `guess_content_kind`, `raise_for_invalid_channel` and the ricecooker and le_utils classes (magogenie.py:200-252) are calls into a library that is not part of this model. The le_utils constants are given the strings that library defines; the proofs only use that the five question kinds are distinct.
- Missing keys in a fetched record: the record types always hold every field, so the `KeyError` that `question_list` raises on a record without `possible_answers`, `question_id`, `success`, `question`, `answer_type`, `content`, `is_correct`, `id` or `difficulty_level` (magogenie.py:53-79) is not modelled; only the two `IndexError`s are.
- JSON value types: question ids and difficulty levels are modelled as ints, `answer_type` as a string, `is_correct` and `success` as booleans, question and answer `content` as text, and `possible_answers` as a list of answers. Other JSON types in those fields are not modelled. This includes the `TypeError` that `re.sub` raises on a non-string `content` (magogenie.py:59, 66), and the error on a null or non-list `possible_answers` (magogenie.py:53, 65).
- `Chunking.Chunks` fixes the batch size at 6, the default of `f` and the only size it is called with.
- The dead assignment `levels = {}` (magogenie.py:42) and the unused lookup `question_parent` (magogenie.py:192) have no effect and are not modelled.
- `tests.py` only runs live HTTP smoke tests, so there is no internal logic in it to model.
- The `settings` import and the unused `pickle` and backup code are left out.

=== FILE: chunking.dfy ===
/**
 * Batching of a topic's question ids before they are fetched: the list
 * comprehension `f` at magogenie.py:136, always called with its default
 * batch size of 6.
 */
module Chunking {
  import opened Seqs

  /** The default `n=6` of `f`. */
  const BatchSize: nat := 6

  function Min(a: int, b: int): int
  {
    if a < b then a else b
  }

  /**
   * `[A[i:i+n] for i in range(0, len(A), n)]` with n = 6; the slice end is
   * clamped as Python's is. Every chunk holds between 1 and 6 ids, and only
   * the last may hold fewer than 6.
   */
  function Chunks<T>(a: seq<T>): (r: seq<seq<T>>)
    ensures |r| == (|a| + BatchSize - 1) / BatchSize
    ensures forall k :: 0 <= k < |r| ==> 1 <= |r[k]| <= BatchSize
    ensures forall k :: 0 <= k < |r| - 1 ==> |r[k]| == BatchSize
  {
    seq((|a| + BatchSize - 1) / BatchSize,
        k requires 0 <= k < (|a| + BatchSize - 1) / BatchSize =>
          a[BatchSize * k .. Min(BatchSize * k + BatchSize, |a|)])
  }

  /** Batching peels off the first six ids and batches the rest. */
  lemma ChunksUnfold<T>(a: seq<T>)
    requires |a| > 0
    ensures Chunks(a) == [a[..Min(BatchSize, |a|)]] + Chunks(a[Min(BatchSize, |a|)..])
  {
    var r := Chunks(a);
    var m := Min(BatchSize, |a|);
    var rest := Chunks(a[m..]);
    assert |r| == |rest| + 1;
    forall k | 0 <= k < |r|
      ensures r[k] == ([a[..m]] + rest)[k]
    {
      if k > 0 {
        assert rest[k - 1] == a[m..][BatchSize * (k - 1) .. Min(BatchSize * (k - 1) + BatchSize, |a| - m)];
      }
    }
  }

  /** Concatenating the chunks gives back the id list. */
  lemma {:induction false} ChunksFlatten<T>(a: seq<T>)
    ensures Flatten(Chunks(a)) == a
    decreases |a|
  {
    if |a| > 0 {
      var m := Min(BatchSize, |a|);
      ChunksUnfold(a);
      ChunksFlatten(a[m..]);
      assert Chunks(a)[1..] == Chunks(a[m..]);
      assert a == a[..m] + a[m..];
    }
  }
}

=== FILE: dispatch.dfy ===
/**
 * `create_question` (magogenie.py:254-290): the question dict's `type`
 * selects the kind of question object, which is built from the fields
 * that kind reads; any other type is rejected. The question classes of the
 * publishing library are modelled as the variants of one datatype holding
 * exactly the values passed to their constructors.
 */
module Dispatch {
  import opened Wrappers
  import opened Images
  import opened PyStr
  import opened Records
  import Exercises

  datatype Question =
    | MultipleSelectQuestion(id: Value, question: Value, correctAnswers: Value, allAnswers: Value, hints: Option<Value>)
    | SingleSelectQuestion(id: Value, question: Value, correctAnswer: Value, allAnswers: Value, hints: Option<Value>)
    | InputQuestion(id: Value, question: Value, answers: Value, hints: Option<Value>)
    | FreeResponseQuestion(id: Value, question: Value, hints: Option<Value>)
    | PerseusQuestion(id: Value, rawData: Value)

  /** A missing key (`KeyError`) or an unrecognised type (`UnknownQuestionTypeError`). */
  datatype DispatchError = KeyError(key: string) | UnknownQuestionTypeError(questionType: Value)

  /** `raw[key]`. */
  function Lookup(raw: map<string, Value>, key: string): (r: Result<Value, DispatchError>)
    ensures r.Success? <==> key in raw
    ensures r.Success? ==> r.value == raw[key]
    ensures r.Failure? ==> r.error == KeyError(key)
  {
    if key in raw then Success(raw[key]) else Failure(KeyError(key))
  }

  /** `raw.get(key)`. */
  function Get(raw: map<string, Value>, key: string): (r: Option<Value>)
    ensures r.Some? <==> key in raw
    ensures r.Some? ==> r.value == raw[key]
  {
    if key in raw then Some(raw[key]) else None
  }

  predicate IsKnownKind(v: Value)
  {
    v.VStr? && v.s in Exercises.QuestionKinds
  }

  /** The keys each kind reads with `[]`, in the order the constructor call reads them. */
  function RequiredFields(kind: string): (r: seq<string>)
    ensures |r| >= 2 && r[0] == "id"
    ensures "type" !in r && "hints" !in r
    ensures forall i, j | 0 <= i < j < |r| :: r[i] != r[j]
  {
    if kind == Exercises.MultipleSelection then ["id", "question", "correct_answers", "all_answers"]
    else if kind == Exercises.SingleSelection then ["id", "question", "correct_answer", "all_answers"]
    else if kind == Exercises.InputQuestion then ["id", "question", "answers"]
    else if kind == Exercises.FreeResponse then ["id", "question"]
    else ["id", "item_data"]
  }

  /** key is the first of keys that raw lacks. */
  predicate IsFirstMissing(keys: seq<string>, raw: map<string, Value>, key: string)
  {
    && key in keys && key !in raw
    && forall j, l | 0 <= l < j < |keys| && keys[j] == key :: keys[l] in raw
  }

  /** The `type` string of the kind a question object is. */
  function KindOf(q: Question): string
  {
    match q
    case MultipleSelectQuestion(_, _, _, _, _) => Exercises.MultipleSelection
    case SingleSelectQuestion(_, _, _, _, _) => Exercises.SingleSelection
    case InputQuestion(_, _, _, _) => Exercises.InputQuestion
    case FreeResponseQuestion(_, _, _) => Exercises.FreeResponse
    case PerseusQuestion(_, _) => Exercises.PerseusQuestion
  }

  /**
   * `create_question`. It succeeds exactly when `type` is one of the five
   * kinds and every field that kind reads is present; the object is of that
   * kind and carries the dict's id (and, by `CreateQuestionCarriesFields`,
   * every other value it reads). An unknown type is reported as such; a
   * missing field is reported by the first key read that is absent.
   */
  function CreateQuestion(raw: map<string, Value>): (r: Result<Question, DispatchError>)
    ensures "type" !in raw ==> r == Failure(KeyError("type"))
    ensures (r.Failure? && r.error.UnknownQuestionTypeError?) <==> "type" in raw && !IsKnownKind(raw["type"])
    ensures r.Success? <==>
      "type" in raw && IsKnownKind(raw["type"]) &&
      forall f | f in RequiredFields(raw["type"].s) :: f in raw
    ensures r.Success? ==> raw["type"] == VStr(KindOf(r.value)) && r.value.id == raw["id"]
    ensures r.Failure? && r.error.KeyError? && "type" in raw ==>
      "type" in raw && IsKnownKind(raw["type"]) &&
      IsFirstMissing(RequiredFields(raw["type"].s), raw, r.error.key)
  {
    var t :- Lookup(raw, "type");
    if t == VStr(Exercises.MultipleSelection) then
      var id :- Lookup(raw, "id");
      var question :- Lookup(raw, "question");
      var correctAnswers :- Lookup(raw, "correct_answers");
      var allAnswers :- Lookup(raw, "all_answers");
      Success(MultipleSelectQuestion(id, question, correctAnswers, allAnswers, Get(raw, "hints")))
    else if t == VStr(Exercises.SingleSelection) then
      var id :- Lookup(raw, "id");
      var question :- Lookup(raw, "question");
      var correctAnswer :- Lookup(raw, "correct_answer");
      var allAnswers :- Lookup(raw, "all_answers");
      Success(SingleSelectQuestion(id, question, correctAnswer, allAnswers, Get(raw, "hints")))
    else if t == VStr(Exercises.InputQuestion) then
      var id :- Lookup(raw, "id");
      var question :- Lookup(raw, "question");
      var answers :- Lookup(raw, "answers");
      Success(InputQuestion(id, question, answers, Get(raw, "hints")))
    else if t == VStr(Exercises.FreeResponse) then
      var id :- Lookup(raw, "id");
      var question :- Lookup(raw, "question");
      Success(FreeResponseQuestion(id, question, Get(raw, "hints")))
    else if t == VStr(Exercises.PerseusQuestion) then
      var id :- Lookup(raw, "id");
      var rawData :- Lookup(raw, "item_data");
      Success(PerseusQuestion(id, rawData))
    else
      Failure(UnknownQuestionTypeError(t))
  }

  /** The dict a question object is built from: its kind's `type`, its fields, and `hints` when it has some. */
  function ToRaw(q: Question): (r: map<string, Value>)
    ensures "type" in r && r["type"] == VStr(KindOf(q))
    ensures "id" in r && r["id"] == q.id
  {
    var hints := match q
      case PerseusQuestion(_, _) => None
      case MultipleSelectQuestion(_, _, _, _, h) => h
      case SingleSelectQuestion(_, _, _, _, h) => h
      case InputQuestion(_, _, _, h) => h
      case FreeResponseQuestion(_, _, h) => h;
    var fields := match q
      case MultipleSelectQuestion(id, qn, ca, aa, _) =>
        map["id" := id, "question" := qn, "correct_answers" := ca, "all_answers" := aa]
      case SingleSelectQuestion(id, qn, ca, aa, _) =>
        map["id" := id, "question" := qn, "correct_answer" := ca, "all_answers" := aa]
      case InputQuestion(id, qn, a, _) => map["id" := id, "question" := qn, "answers" := a]
      case FreeResponseQuestion(id, qn, _) => map["id" := id, "question" := qn]
      case PerseusQuestion(id, d) => map["id" := id, "item_data" := d];
    var typed := fields["type" := VStr(KindOf(q))];
    if hints.Some? then typed["hints" := hints.value] else typed
  }

  /** The object `create_question` builds from a known kind, when every field it reads is present. */
  lemma CreateQuestionBuilds(raw: map<string, Value>)
    requires CreateQuestion(raw).Success?
    ensures var q := CreateQuestion(raw).value; var t := raw["type"];
      && (t == VStr(Exercises.MultipleSelection) ==> q == MultipleSelectQuestion(
            raw["id"], raw["question"], raw["correct_answers"], raw["all_answers"], Get(raw, "hints")))
      && (t == VStr(Exercises.SingleSelection) ==> q == SingleSelectQuestion(
            raw["id"], raw["question"], raw["correct_answer"], raw["all_answers"], Get(raw, "hints")))
      && (t == VStr(Exercises.InputQuestion) ==> q == InputQuestion(raw["id"], raw["question"], raw["answers"], Get(raw, "hints")))
      && (t == VStr(Exercises.FreeResponse) ==> q == FreeResponseQuestion(raw["id"], raw["question"], Get(raw, "hints")))
      && (t == VStr(Exercises.PerseusQuestion) ==> q == PerseusQuestion(raw["id"], raw["item_data"]))
  {
  }

  /**
   * The object built from a dict carries exactly the dict's values: every
   * entry of its own dict (`type`, the fields its kind reads, and `hints`
   * when it has some) is an entry of the dict, whatever other keys the dict
   * holds.
   */
  lemma CreateQuestionCarriesFields(raw: map<string, Value>)
    requires CreateQuestion(raw).Success?
    ensures var q := CreateQuestion(raw).value;
      forall k | k in ToRaw(q) :: k in raw && raw[k] == ToRaw(q)[k]
  {
    CreateQuestionBuilds(raw);
  }

  /**
   * And it keeps every one of them: its own dict holds `type`, the fields
   * its kind reads, and `hints` exactly when the dict has them (a Perseus
   * question takes none).
   */
  lemma CreateQuestionKeepsFields(raw: map<string, Value>)
    requires CreateQuestion(raw).Success?
    ensures var q := CreateQuestion(raw).value;
      ToRaw(q).Keys ==
        {"type"} + (set f | f in RequiredFields(KindOf(q))) +
        (if "hints" in raw && KindOf(q) != Exercises.PerseusQuestion then {"hints"} else {})
  {
    CreateQuestionBuilds(raw);
    var q := CreateQuestion(raw).value;
    var fields := RequiredFields(KindOf(q));
    match q
    case MultipleSelectQuestion(_, _, _, _, _) =>
      assert (set f | f in fields) == {"id", "question", "correct_answers", "all_answers"};
    case SingleSelectQuestion(_, _, _, _, _) =>
      assert (set f | f in fields) == {"id", "question", "correct_answer", "all_answers"};
    case InputQuestion(_, _, _, _) =>
      assert (set f | f in fields) == {"id", "question", "answers"};
    case FreeResponseQuestion(_, _, _) =>
      assert (set f | f in fields) == {"id", "question"};
    case PerseusQuestion(_, _) =>
      assert (set f | f in fields) == {"id", "item_data"};
  }

  /** Dispatch recovers every question object from the dict it would be built from. */
  lemma CreateQuestionInvertsToRaw(q: Question)
    ensures CreateQuestion(ToRaw(q)) == Success(q)
  {
  }

  /**
   * Every question dict the record conversion produces is accepted, and
   * becomes the kind its answer type names: radio a single-select question
   * with the first correct answer, multiple_select a multiple-select
   * question with all correct answers, number and text an input question,
   * subjective a free-response question; none has hints.
   */
  lemma ConvertedQuestionDispatches(rec: RawRecord, url: string, q: QuestionData)
    requires ConvertRecord(rec, url) == Success(Some(q))
    ensures var t := rec.question.answerType; var pas := rec.possibleAnswers;
      var id := VStr(IntToString(rec.question.id));
      var text := VStr(Clean(url, rec.question.content));
      var r := CreateQuestion(AsDict(q));
      && r.Success?
      && (t == Radio ==> r.value == SingleSelectQuestion(id, text, q.answer, VStrs(CleanAnswers(pas, url)), None))
      && (t == MultipleSelect ==>
            r.value == MultipleSelectQuestion(id, text, VStrs(CorrectAnswers(pas, url)), VStrs(CleanAnswers(pas, url)), None))
      && (t == "number" || t == "text" ==> r.value == InputQuestion(id, text, VStrs(CorrectAnswers(pas, url)), None))
      && (t == "subjective" ==> r.value == FreeResponseQuestion(id, text, None))
  {
    ConvertedFields(rec, url, q);
    var t := rec.question.answerType;
    if t == Radio {
    } else if t == MultipleSelect {
    } else if t == "number" || t == "text" {
    } else {
    }
  }
}

=== FILE: exercises.dfy ===
/**
 * The constants magogenie.py takes from le_utils (`exercises`, `licenses`).
 * le_utils is not part of this model; the values are the strings that
 * library defines, and the proofs rely only on the question kinds being
 * pairwise distinct.
 */
module Exercises {
  const MultipleSelection: string := "multiple_selection"
  const SingleSelection: string := "single_selection"
  const InputQuestion: string := "input_question"
  const FreeResponse: string := "free_response"
  const PerseusQuestion: string := "perseus_question"

  /** The five question kinds `create_question` accepts. */
  const QuestionKinds: set<string> :=
    {MultipleSelection, SingleSelection, InputQuestion, FreeResponse, PerseusQuestion}

  /** `exercises.M_OF_N`, the mastery model of every topic and level. */
  const MOfN: string := "m_of_n"

  /** `licenses.CC_BY_NC_SA`, the license of every topic and level. */
  const CcByNcSa: string := "CC BY-NC-SA"
}

=== FILE: images.dfy ===
/**
 * Rewriting of image references in question and answer text
 * (magogenie.py:59-60 and 66-68). The two regular expressions
 * (`regex_image`, `regex_base64`) are not modelled: a text arrives already
 * split into plain runs and the runs each expression matched, and only the
 * replacement rule is modelled.
 */
module Images {
  import opened PyStr

  /** A run of text: unmatched, a match of `regex_image`, or a match of `regex_base64`. */
  datatype Segment = Plain(text: string) | AssetPath(path: string) | DataUri(uri: string)

  type Text = seq<Segment>

  /** The characters a segment stands for. */
  function SegmentString(g: Segment): string
  {
    match g
    case Plain(t) => t
    case AssetPath(m) => m
    case DataUri(d) => d
  }

  /** The whole text as one string. */
  function Render(t: Text): string
  {
    if t == [] then [] else Render(t[..|t| - 1]) + SegmentString(t[|t| - 1])
  }

  /**
   * The replacement for a matched asset path m: the server `url` is put in
   * front unless it already occurs in m, and the result is wrapped as a
   * Markdown image.
   */
  function ImageLink(url: string, m: string): (r: string)
  {
    if !Occurs(url, m) then "![](" + url + m + ")" else "![](" + m + ")"
  }

  /** The replacement for a matched data URI d. */
  function DataUriLink(d: string): string
  {
    "![](" + d + ")"
  }

  /** `re.sub(regex_image, ...)`: every matched asset path is replaced, nothing else is touched. */
  function RewriteAssets(url: string, t: Text): (r: Text)
    ensures |r| == |t|
    ensures forall i :: 0 <= i < |t| && t[i].AssetPath? ==> r[i] == Plain(ImageLink(url, t[i].path))
    ensures forall i :: 0 <= i < |t| && !t[i].AssetPath? ==> r[i] == t[i]
  {
    if t == [] then []
    else
      var g := t[|t| - 1];
      RewriteAssets(url, t[..|t| - 1]) + [if g.AssetPath? then Plain(ImageLink(url, g.path)) else g]
  }

  /** `re.sub(regex_base64, ...)`: every matched data URI is replaced, nothing else is touched. */
  function RewriteDataUris(t: Text): (r: Text)
    ensures |r| == |t|
    ensures forall i :: 0 <= i < |t| && t[i].DataUri? ==> r[i] == Plain(DataUriLink(t[i].uri))
    ensures forall i :: 0 <= i < |t| && !t[i].DataUri? ==> r[i] == t[i]
  {
    if t == [] then []
    else
      var g := t[|t| - 1];
      RewriteDataUris(t[..|t| - 1]) + [if g.DataUri? then Plain(DataUriLink(g.uri)) else g]
  }

  /** The two substitutions in the order the source applies them, as one string. */
  function Clean(url: string, t: Text): string
  {
    Render(RewriteDataUris(RewriteAssets(url, t)))
  }

  /** After both substitutions no matched run is left. */
  lemma CleanLeavesOnlyPlain(url: string, t: Text)
    ensures forall g :: g in RewriteDataUris(RewriteAssets(url, t)) ==> g.Plain?
  {
  }

  /** A rewritten asset reference is a Markdown image that holds both the url and the matched path. */
  lemma ImageLinkShape(url: string, m: string)
    ensures var r := ImageLink(url, m);
      |r| >= 5 && r[..4] == "![](" && r[|r| - 1] == ')' && Occurs(url, r) && Occurs(m, r)
  {
    var r := ImageLink(url, m);
    if !Occurs(url, m) {
      assert OccursAt(url, r, 4);
      assert OccursAt(m, r, 4 + |url|);
    } else {
      var i :| 0 <= i <= |m| - |url| && OccursAt(url, m, i);
      assert r[4 + i .. 4 + i + |url|] == m[i .. i + |url|];
      assert OccursAt(url, r, 4 + i);
      assert OccursAt(m, r, 4);
    }
  }

  /** The url is added at most once: a path that already names the server is only wrapped. */
  lemma ImageLinkNoDoubleUrl(url: string, m: string)
    requires Occurs(url, m)
    ensures |ImageLink(url, m)| == |m| + 5
  {
  }

  lemma {:induction false} RenderAppend(a: Text, b: Text)
    ensures Render(a + b) == Render(a) + Render(b)
    decreases |b|
  {
    if b == [] {
      assert a + b == a;
    } else {
      assert (a + b)[..|a + b| - 1] == a + b[..|b| - 1];
      RenderAppend(a, b[..|b| - 1]);
    }
  }

  lemma {:induction false} RewriteAssetsAppend(url: string, a: Text, b: Text)
    ensures RewriteAssets(url, a + b) == RewriteAssets(url, a) + RewriteAssets(url, b)
    decreases |b|
  {
    if b == [] {
      assert a + b == a;
    } else {
      var init := b[..|b| - 1];
      assert (a + b)[..|a + b| - 1] == a + init;
      assert (a + b)[|a + b| - 1] == b[|b| - 1];
      RewriteAssetsAppend(url, a, init);
    }
  }

  lemma {:induction false} RewriteDataUrisAppend(a: Text, b: Text)
    ensures RewriteDataUris(a + b) == RewriteDataUris(a) + RewriteDataUris(b)
    decreases |b|
  {
    if b == [] {
      assert a + b == a;
    } else {
      var init := b[..|b| - 1];
      assert (a + b)[..|a + b| - 1] == a + init;
      assert (a + b)[|a + b| - 1] == b[|b| - 1];
      RewriteDataUrisAppend(a, init);
    }
  }

  /** Cleaning works run by run: the cleaned text of a concatenation is the concatenation of the cleaned parts. */
  lemma CleanAppend(url: string, a: Text, b: Text)
    ensures Clean(url, a + b) == Clean(url, a) + Clean(url, b)
  {
    RewriteAssetsAppend(url, a, b);
    RewriteDataUrisAppend(RewriteAssets(url, a), RewriteAssets(url, b));
    RenderAppend(RewriteDataUris(RewriteAssets(url, a)), RewriteDataUris(RewriteAssets(url, b)));
  }

  /** Text in which neither expression matched comes out unchanged. */
  lemma {:induction false} CleanUnmatched(url: string, t: Text)
    requires forall g :: g in t ==> g.Plain?
    ensures Clean(url, t) == Render(t)
  {
    var r := RewriteDataUris(RewriteAssets(url, t));
    forall i | 0 <= i < |t|
      ensures r[i] == t[i]
    {
      assert t[i] in t;
    }
    assert r == t;
  }

  /** The cleaned form of each kind of run. */
  lemma CleanSegment(url: string, g: Segment)
    ensures Clean(url, [g]) == match g
      case Plain(p) => p
      case AssetPath(m) => ImageLink(url, m)
      case DataUri(d) => DataUriLink(d)
  {
    assert Render(RewriteDataUris(RewriteAssets(url, [g]))) ==
      Render([]) + SegmentString(RewriteDataUris(RewriteAssets(url, [g]))[0]);
  }
}

=== FILE: levels.dfy ===
/**
 * Grouping a topic's questions into exercises by difficulty
 * (magogenie.py:147-163): one `level<d>` record per difficulty, created the
 * first time that difficulty is met, each collecting its questions in order.
 */
module Levels {
  import opened PyStr
  import opened Seqs
  import opened Records
  import opened Exercises

  /** The dict created at l.158 for one difficulty. */
  datatype Level = Level(id: string, title: string, questions: seq<QuestionData>, masteryModel: string, license: string)

  /** `'level' + str(d)`, the id and the title of a level. */
  function LevelName(d: int): string
  {
    "level" + IntToString(d)
  }

  /** The sort key of l.149. */
  function QuestionKey(q: QuestionData): string
  {
    q.id
  }

  predicate HasLevel(qs: seq<QuestionData>, d: int)
  {
    exists i | 0 <= i < |qs| :: qs[i].difficultyLevel == d
  }

  /** The difficulties of qs, each once, in the order they first occur. */
  function FirstAppearance(qs: seq<QuestionData>): (ds: seq<int>)
    ensures forall d :: d in ds <==> HasLevel(qs, d)
    ensures forall k, l | 0 <= k < l < |ds| :: ds[k] != ds[l]
  {
    if qs == [] then []
    else
      var init := qs[..|qs| - 1];
      var d := qs[|qs| - 1].difficultyLevel;
      var ds := FirstAppearance(init);
      assert forall e :: HasLevel(qs, e) <==> HasLevel(init, e) || e == d by {
        forall e | HasLevel(init, e) ensures HasLevel(qs, e) {
          var i :| 0 <= i < |init| && init[i].difficultyLevel == e;
          assert qs[i] == init[i];
        }
        forall e | HasLevel(qs, e) && e != d ensures HasLevel(init, e) {
          var i :| 0 <= i < |qs| && qs[i].difficultyLevel == e;
          assert init[i] == qs[i];
        }
      }
      if d in ds then ds else ds + [d]
  }

  /** The questions of difficulty d, in their order in qs. */
  function OfLevel(qs: seq<QuestionData>, d: int): (r: seq<QuestionData>)
    ensures |r| <= |qs|
    ensures forall i | 0 <= i < |r| :: r[i].difficultyLevel == d
  {
    if qs == [] then []
    else
      var q := qs[|qs| - 1];
      OfLevel(qs[..|qs| - 1], d) + (if q.difficultyLevel == d then [q] else [])
  }

  /** The level record for difficulty d once every question of qs has been added. */
  function MakeLevel(qs: seq<QuestionData>, d: int): Level
  {
    Level(LevelName(d), LevelName(d), OfLevel(qs, d), MOfN, CcByNcSa)
  }

  /** `levels.items()` after the loop at l.154-159: one level per difficulty, in first-appearance order. */
  function Grouped(qs: seq<QuestionData>): (g: seq<Level>)
    ensures |g| == |FirstAppearance(qs)|
  {
    LevelsFor(qs, FirstAppearance(qs))
  }

  /** The level records of qs for the difficulties ds, in that order. */
  function LevelsFor(qs: seq<QuestionData>, ds: seq<int>): (g: seq<Level>)
    ensures |g| == |ds|
    ensures forall k | 0 <= k < |ds| :: g[k] == MakeLevel(qs, ds[k])
  {
    seq(|ds|, k requires 0 <= k < |ds| => MakeLevel(qs, ds[k]))
  }

  /**
   * The loop at l.154-159. A Python dict keeps insertion order, so the dict
   * `levels` is modelled by its keys in insertion order and a map.
   */
  method CollectLevels(qs: seq<QuestionData>) returns (order: seq<int>, levels: map<int, Level>)
    ensures order == FirstAppearance(qs)
    ensures forall d :: d in levels <==> d in order
    ensures forall j | 0 <= j < |order| :: order[j] in levels
    ensures forall d | d in levels :: levels[d] == MakeLevel(qs, d)
  {
    order, levels := [], map[];
    for i := 0 to |qs|
      invariant order == FirstAppearance(qs[..i])
      invariant forall d :: d in levels <==> d in order
      invariant forall d | d in levels :: levels[d] == MakeLevel(qs[..i], d)
    {
      var q := qs[i];
      var diff := q.difficultyLevel;
      GroupStep(qs, i);
      if diff !in levels {
        var val := "level" + IntToString(diff);
        levels := levels[diff := Level(val, val, [], MOfN, CcByNcSa)];
        order := order + [diff];
      }
      levels := levels[diff := levels[diff].(questions := levels[diff].questions + [q])];
    }
    assert qs[..|qs|] == qs;
  }

  /** The grouping of l.151-163 followed by `levels.items()`: the levels in first-appearance order. */
  method GroupByLevel(qs: seq<QuestionData>) returns (groups: seq<Level>)
    ensures groups == Grouped(qs)
  {
    var order, levels := CollectLevels(qs);
    groups := [];
    for k := 0 to |order|
      invariant |groups| == k
      invariant forall j | 0 <= j < k :: order[j] in levels && groups[j] == levels[order[j]]
    {
      groups := groups + [levels[order[k]]];
    }
    forall j | 0 <= j < |order|
      ensures groups[j] == Grouped(qs)[j]
    {
      assert groups[j] == MakeLevel(qs, order[j]);
    }
  }

  /** What adding question i changes: its difficulty is appended if new, and its level gains it. */
  lemma GroupStep(qs: seq<QuestionData>, i: nat)
    requires i < |qs|
    ensures var q := qs[i]; var before := qs[..i]; var after := qs[..i + 1];
      && FirstAppearance(after) ==
           (if q.difficultyLevel in FirstAppearance(before) then FirstAppearance(before)
            else FirstAppearance(before) + [q.difficultyLevel])
      && (q.difficultyLevel !in FirstAppearance(before) ==> OfLevel(before, q.difficultyLevel) == [])
      && (forall d :: MakeLevel(after, d) ==
            if d == q.difficultyLevel then MakeLevel(before, d).(questions := OfLevel(before, d) + [q])
            else MakeLevel(before, d))
  {
    assert qs[..i + 1][..i] == qs[..i];
    if qs[i].difficultyLevel !in FirstAppearance(qs[..i]) {
      OfLevelAbsent(qs[..i], qs[i].difficultyLevel);
    }
  }

  lemma {:induction false} OfLevelAbsent(qs: seq<QuestionData>, d: int)
    requires !HasLevel(qs, d)
    ensures OfLevel(qs, d) == []
  {
    if qs != [] {
      OfLevelAbsent(qs[..|qs| - 1], d);
    }
  }

  /** A question is in the level of its own difficulty and in no other. */
  lemma {:induction false} OfLevelMembership(qs: seq<QuestionData>, d: int, q: QuestionData)
    ensures q in OfLevel(qs, d) <==> q in qs && q.difficultyLevel == d
  {
    if qs != [] {
      var init := qs[..|qs| - 1];
      OfLevelMembership(init, d, q);
      assert qs == init + [qs[|qs| - 1]];
    }
  }

  /** Each level keeps its questions in their order in qs, so sorted input gives sorted levels. */
  lemma {:induction false} OfLevelSorted(qs: seq<QuestionData>, d: int)
    requires SortedBy(qs, QuestionKey)
    ensures SortedBy(OfLevel(qs, d), QuestionKey)
  {
    if qs != [] {
      var init := qs[..|qs| - 1];
      var q := qs[|qs| - 1];
      assert SortedBy(init, QuestionKey);
      OfLevelSorted(init, d);
      var r := OfLevel(qs, d);
      var s := OfLevel(init, d);
      if q.difficultyLevel == d {
        forall i, j | 0 <= i < j < |r| ensures StrLe(QuestionKey(r[i]), QuestionKey(r[j])) {
          if j == |r| - 1 {
            OfLevelMembership(init, d, r[i]);
            var m :| 0 <= m < |init| && init[m] == r[i];
            assert qs[m] == r[i];
          }
        }
      }
    }
  }

  /** Distinct difficulties give distinct level ids. */
  lemma LevelNameInjective(a: int, b: int)
    requires LevelName(a) == LevelName(b)
    ensures a == b
  {
    assert LevelName(a)[5..] == IntToString(a);
    assert LevelName(b)[5..] == IntToString(b);
    IntToStringInjective(a, b);
  }

  /**
   * Every question of qs lands in exactly one level: the one whose id is
   * `level<d>` for its difficulty d. Level ids are pairwise distinct.
   */
  lemma GroupOfQuestion(qs: seq<QuestionData>, q: QuestionData)
    requires q in qs
    ensures var g := Grouped(qs);
      && (exists k | 0 <= k < |g| :: g[k].id == LevelName(q.difficultyLevel))
      && (forall k | 0 <= k < |g| :: q in g[k].questions <==> g[k].id == LevelName(q.difficultyLevel))
      && (forall k, l | 0 <= k < l < |g| :: g[k].id != g[l].id)
  {
    var g := Grouped(qs);
    var ds := FirstAppearance(qs);
    var d := q.difficultyLevel;
    var i :| 0 <= i < |qs| && qs[i] == q;
    assert HasLevel(qs, d);
    var k0 :| 0 <= k0 < |ds| && ds[k0] == d;
    assert g[k0].id == LevelName(d);
    forall k | 0 <= k < |g| ensures q in g[k].questions <==> g[k].id == LevelName(d) {
      OfLevelMembership(qs, ds[k], q);
      if g[k].id == LevelName(d) {
        LevelNameInjective(ds[k], d);
      }
    }
    forall k, l | 0 <= k < l < |g| ensures g[k].id != g[l].id {
      if g[k].id == g[l].id {
        LevelNameInjective(ds[k], ds[l]);
      }
    }
  }

  /** Within a level, questions keep the ascending string-id order of the sorted input. */
  lemma GroupedSorted(qs: seq<QuestionData>)
    requires SortedBy(qs, QuestionKey)
    ensures forall k | 0 <= k < |Grouped(qs)| :: SortedBy(Grouped(qs)[k].questions, QuestionKey)
  {
    var ds := FirstAppearance(qs);
    forall k | 0 <= k < |ds| ensures SortedBy(Grouped(qs)[k].questions, QuestionKey) {
      OfLevelSorted(qs, ds[k]);
    }
  }

  /**
   * Levels come in the order their difficulties first occur: a question of
   * an earlier level's difficulty is met before any question of a later one.
   */
  lemma {:induction false} FirstAppearanceOrder(qs: seq<QuestionData>, k: nat, l: nat)
    requires k < l < |FirstAppearance(qs)|
    ensures exists i | 0 <= i < |qs| ::
      qs[i].difficultyLevel == FirstAppearance(qs)[k] &&
      forall j | 0 <= j <= i :: qs[j].difficultyLevel != FirstAppearance(qs)[l]
  {
    var init := qs[..|qs| - 1];
    var ds := FirstAppearance(qs);
    var dsInit := FirstAppearance(init);
    var d := qs[|qs| - 1].difficultyLevel;
    if l < |dsInit| {
      FirstAppearanceOrder(init, k, l);
      var i :| 0 <= i < |init| && init[i].difficultyLevel == dsInit[k] &&
        forall j | 0 <= j <= i :: init[j].difficultyLevel != dsInit[l];
      assert qs[i] == init[i];
      assert forall j | 0 <= j <= i :: qs[j] == init[j];
    } else {
      assert ds[l] == d && d !in dsInit;
      assert HasLevel(init, ds[k]);
      var i :| 0 <= i < |init| && init[i].difficultyLevel == ds[k];
      assert qs[i] == init[i];
      forall j | 0 <= j <= i ensures qs[j].difficultyLevel != d {
        assert qs[j] == init[j];
      }
    }
  }

  /** The questions of the levels, one level after the other. */
  function LevelQuestions(g: seq<Level>): seq<QuestionData>
  {
    if g == [] then [] else g[0].questions + LevelQuestions(g[1..])
  }

  /** The questions of qs whose difficulty is one of ds, in order. */
  function Within(qs: seq<QuestionData>, ds: seq<int>): seq<QuestionData>
  {
    if qs == [] then []
    else
      var q := qs[|qs| - 1];
      Within(qs[..|qs| - 1], ds) + (if q.difficultyLevel in ds then [q] else [])
  }

  lemma {:induction false} WithinSplit(qs: seq<QuestionData>, ds: seq<int>)
    requires ds != [] && ds[0] !in ds[1..]
    ensures multiset(Within(qs, ds)) == multiset(Within(qs, ds[1..])) + multiset(OfLevel(qs, ds[0]))
  {
    if qs != [] {
      var init, q := qs[..|qs| - 1], qs[|qs| - 1];
      var d, rest := ds[0], ds[1..];
      WithinSplit(init, ds);
      assert q.difficultyLevel in ds <==> q.difficultyLevel == d || q.difficultyLevel in rest by {
        assert ds == [d] + rest;
      }
      assert Within(qs, ds) == Within(init, ds) + (if q.difficultyLevel in ds then [q] else []);
      assert Within(qs, rest) == Within(init, rest) + (if q.difficultyLevel in rest then [q] else []);
      assert OfLevel(qs, d) == OfLevel(init, d) + (if q.difficultyLevel == d then [q] else []);
    }
  }

  lemma {:induction false} WithinAll(qs: seq<QuestionData>, ds: seq<int>)
    requires forall i | 0 <= i < |qs| :: qs[i].difficultyLevel in ds
    ensures Within(qs, ds) == qs
  {
    if qs != [] {
      WithinAll(qs[..|qs| - 1], ds);
      assert qs[..|qs| - 1] + [qs[|qs| - 1]] == qs;
    }
  }

  lemma {:induction false} LevelsForQuestions(qs: seq<QuestionData>, ds: seq<int>)
    requires forall k, l | 0 <= k < l < |ds| :: ds[k] != ds[l]
    ensures multiset(LevelQuestions(LevelsFor(qs, ds))) == multiset(Within(qs, ds))
  {
    if ds == [] {
      WithinNone(qs, ds);
    } else {
      var rest := ds[1..];
      assert LevelsFor(qs, ds)[1..] == LevelsFor(qs, rest);
      LevelsForQuestions(qs, rest);
      assert ds[0] !in rest;
      WithinSplit(qs, ds);
    }
  }

  lemma {:induction false} WithinNone(qs: seq<QuestionData>, ds: seq<int>)
    requires ds == []
    ensures Within(qs, ds) == []
  {
    if qs != [] {
      WithinNone(qs[..|qs| - 1], ds);
    }
  }

  /** The levels partition the questions: together they hold each question exactly as often as qs does. */
  lemma GroupedPartition(qs: seq<QuestionData>)
    ensures multiset(LevelQuestions(Grouped(qs))) == multiset(qs)
  {
    var ds := FirstAppearance(qs);
    LevelsForQuestions(qs, ds);
    forall i | 0 <= i < |qs| ensures qs[i].difficultyLevel in ds {
      assert HasLevel(qs, qs[i].difficultyLevel);
    }
    WithinAll(qs, ds);
  }
}

=== FILE: pystr.dfy ===
/**
 * The few Python string operations the pipeline depends on: `str()` of an
 * integer, the ordering `sorted` uses on string keys (code point by code
 * point, a proper prefix first), and the substring test `x in s`.
 */
module PyStr {

  function DigitChar(d: nat): (c: char)
    requires d < 10
    ensures '0' <= c <= '9'
  {
    ('0' as int + d) as char
  }

  /** Decimal digits of n, most significant first, without leading zeros. */
  function NatToString(n: nat): (s: string)
    ensures 1 <= |s|
    ensures forall i :: 0 <= i < |s| ==> '0' <= s[i] <= '9'
    ensures n < 10 <==> |s| == 1
  {
    if n < 10 then [DigitChar(n)] else NatToString(n / 10) + [DigitChar(n % 10)]
  }

  /** Python's `str(i)` for an int: a leading '-' for negative numbers. */
  function IntToString(i: int): (s: string)
    ensures 1 <= |s|
    ensures (s[0] == '-') <==> i < 0
  {
    if i < 0 then "-" + NatToString(-i) else NatToString(i)
  }

  lemma {:induction false} NatToStringInjective(a: nat, b: nat)
    requires NatToString(a) == NatToString(b)
    ensures a == b
  {
    var s := NatToString(a);
    if a >= 10 && b >= 10 {
      assert s[|s| - 1] == DigitChar(a % 10) == DigitChar(b % 10);
      assert s[..|s| - 1] == NatToString(a / 10) == NatToString(b / 10);
      NatToStringInjective(a / 10, b / 10);
    } else if a < 10 && b < 10 {
      assert s[0] == DigitChar(a) == DigitChar(b);
    }
  }

  /** Distinct integers print differently. */
  lemma IntToStringInjective(a: int, b: int)
    requires IntToString(a) == IntToString(b)
    ensures a == b
  {
    if a < 0 && b < 0 {
      assert IntToString(a)[1..] == NatToString(-a);
      assert IntToString(b)[1..] == NatToString(-b);
      NatToStringInjective(-a, -b);
    } else if 0 <= a && 0 <= b {
      NatToStringInjective(a, b);
    }
  }

  /** `a <= b` on Python strings: lexicographic by code point. */
  predicate StrLe(a: string, b: string)
  {
    |a| == 0 || (0 < |b| && (a[0] < b[0] || (a[0] == b[0] && StrLe(a[1..], b[1..]))))
  }

  lemma {:induction false} StrLeReflexive(a: string)
    ensures StrLe(a, a)
  {
    if |a| > 0 {
      StrLeReflexive(a[1..]);
    }
  }

  lemma {:induction false} StrLeTotal(a: string, b: string)
    ensures StrLe(a, b) || StrLe(b, a)
  {
    if |a| > 0 && |b| > 0 && a[0] == b[0] {
      StrLeTotal(a[1..], b[1..]);
    }
  }

  lemma {:induction false} StrLeTransitive(a: string, b: string, c: string)
    requires StrLe(a, b) && StrLe(b, c)
    ensures StrLe(a, c)
  {
    if |a| > 0 && a[0] == b[0] && b[0] == c[0] {
      StrLeTransitive(a[1..], b[1..], c[1..]);
    }
  }

  lemma {:induction false} StrLeAntisymmetric(a: string, b: string)
    requires StrLe(a, b) && StrLe(b, a)
    ensures a == b
  {
    if |a| > 0 {
      StrLeAntisymmetric(a[1..], b[1..]);
      assert a == [a[0]] + a[1..];
      assert b == [b[0]] + b[1..];
    }
  }

  /** The ordering is on text, not on the numbers the text spells. */
  lemma NotNumericOrder()
    ensures StrLe(IntToString(10), IntToString(9)) && !StrLe(IntToString(9), IntToString(10))
  {
    assert IntToString(10) == "10";
    assert IntToString(9) == "9";
  }

  /** `needle` sits in `hay` starting at index i. */
  predicate OccursAt(needle: string, hay: string, i: int)
  {
    0 <= i && i + |needle| <= |hay| && hay[i..i + |needle|] == needle
  }

  /** Python's `needle in hay` on strings. */
  predicate Occurs(needle: string, hay: string)
  {
    exists i | 0 <= i <= |hay| - |needle| :: OccursAt(needle, hay, i)
  }
}

=== FILE: records.dfy ===
/**
 * The conversion of one batch of decoded question records into question
 * dicts: the body of `question_list` (magogenie.py:41-85) after the HTTP
 * fetch, with the answer-type table it uses (magogenie.py:17-30).
 */
module Records {
  import opened Wrappers
  import opened PyStr
  import opened Seqs
  import opened Images
  import opened Exercises

  /** One entry of a record's `possible_answers`. */
  datatype RawAnswer = RawAnswer(questionId: int, content: Text, isCorrect: bool)

  /** A record's `question` object. */
  datatype RawQuestion = RawQuestion(id: int, content: Text, answerType: string, difficultyLevel: int)

  /** One value of the decoded question response, in the order the response lists them. */
  datatype RawRecord = RawRecord(success: bool, question: RawQuestion, possibleAnswers: seq<RawAnswer>)

  /** The values a question dict holds: a string, a list of strings, an int. */
  datatype Value = VStr(s: string) | VStrs(items: seq<string>) | VInt(n: int)

  /** A row of ANSWER_TYPE_KEY: the answer field, the question kind, and the all-answers field if any. */
  datatype AnswerSpec = AnswerSpec(answerField: string, questionType: string, allField: Option<string>)

  /** ANSWER_TYPE[0] and ANSWER_TYPE[1]. */
  const Radio: string := "radio"
  const MultipleSelect: string := "multiple_select"

  const AllAnswersField: string := "all_answers"

  /** ANSWER_TYPE_KEY: the answer types the importer knows. */
  const AnswerTypeKey: map<string, AnswerSpec> := map[
    "radio" := AnswerSpec("correct_answer", SingleSelection, Some(AllAnswersField)),
    "multiple_select" := AnswerSpec("correct_answers", MultipleSelection, Some(AllAnswersField)),
    "number" := AnswerSpec("answers", InputQuestion, None),
    "text" := AnswerSpec("answers", InputQuestion, None),
    "subjective" := AnswerSpec("answers", FreeResponse, None)
  ]

  /** Question ids skipped because they carry two correct options although they are single selection. */
  const Denylist: set<int> := {119742, 119738, 119744, 119751, 98143}

  /** The two IndexErrors `question_list` can raise. */
  datatype ConvertError =
    | NoPossibleAnswers  // `possible_answers[0]` of an empty list
    | NoCorrectAnswer    // `correct_answer[0]` of a radio question with no correct option

  /** The dict `question_list` builds for one question. */
  datatype QuestionData = QuestionData(
    id: string,
    question: string,
    questionType: string,
    allAnswers: Option<seq<string>>,
    answerField: string,
    answer: Value,
    difficultyLevel: int)

  /** The question dict as the Python dict `create_question` later reads. */
  function AsDict(q: QuestionData): (r: map<string, Value>)
    ensures r.Keys == {"id", "question", "type", q.answerField, "difficulty_level"} +
      (if q.allAnswers.Some? then {AllAnswersField} else {})
    ensures r["difficulty_level"] == VInt(q.difficultyLevel)
  {
    var base := map["id" := VStr(q.id), "question" := VStr(q.question), "type" := VStr(q.questionType)];
    var withAll := if q.allAnswers.Some? then base[AllAnswersField := VStrs(q.allAnswers.value)] else base;
    withAll[q.answerField := q.answer]["difficulty_level" := VInt(q.difficultyLevel)]
  }

  /** The possible answers, each rewritten (`possible_answers` at l.63-69). */
  function CleanAnswers(pas: seq<RawAnswer>, url: string): (r: seq<string>)
    ensures |r| == |pas|
  {
    seq(|pas|, i requires 0 <= i < |pas| => Clean(url, pas[i].content))
  }

  /** Which possible answers are marked correct. */
  function CorrectMask(pas: seq<RawAnswer>): (r: seq<bool>)
    ensures |r| == |pas|
  {
    seq(|pas|, i requires 0 <= i < |pas| => pas[i].isCorrect)
  }

  /** The rewritten answers marked correct, in their original order (`correct_answer` at l.64-71). */
  function CorrectAnswers(pas: seq<RawAnswer>, url: string): (r: seq<string>)
    ensures |r| <= |pas|
  {
    Select(CleanAnswers(pas, url), CorrectMask(pas))
  }

  predicate HasCorrect(pas: seq<RawAnswer>)
  {
    exists i | 0 <= i < |pas| :: pas[i].isCorrect
  }

  /** There is a correct answer to collect exactly when some answer is marked correct. */
  lemma CorrectAnswersEmpty(pas: seq<RawAnswer>, url: string)
    ensures |CorrectAnswers(pas, url)| == 0 <==> !HasCorrect(pas)
  {
    var mask := CorrectMask(pas);
    SelectMembership(CleanAnswers(pas, url), mask);
    if HasCorrect(pas) {
      var i :| 0 <= i < |pas| && pas[i].isCorrect;
      assert mask[i];
    }
  }

  /** The guards at l.53 and l.57 that decide whether a record yields a question. */
  predicate Admitted(rec: RawRecord)
  {
    && |rec.possibleAnswers| > 0
    && rec.possibleAnswers[0].questionId !in Denylist
    && rec.success
    && rec.question.answerType in AnswerTypeKey
  }

  /**
   * One iteration of the loop at l.48-83: a question dict, nothing (the
   * record is skipped), or the IndexError that aborts the batch. The answer
   * index 0 is read before `success` is looked at, so an empty answer list
   * fails even for an unsuccessful record.
   */
  function ConvertRecord(rec: RawRecord, url: string): (r: Result<Option<QuestionData>, ConvertError>)
    ensures r == Failure(NoPossibleAnswers) <==> |rec.possibleAnswers| == 0
    ensures r == Failure(NoCorrectAnswer) <==>
      Admitted(rec) && rec.question.answerType == Radio && !HasCorrect(rec.possibleAnswers)
    ensures (r.Success? && r.value.Some?) <==>
      Admitted(rec) && (rec.question.answerType == Radio ==> HasCorrect(rec.possibleAnswers))
  {
    var pas := rec.possibleAnswers;
    if |pas| == 0 then Failure(NoPossibleAnswers)
    else if pas[0].questionId in Denylist || !rec.success then Success(None)
    else if rec.question.answerType !in AnswerTypeKey then Success(None)
    else
      var t := rec.question.answerType;
      var spec := AnswerTypeKey[t];
      var all := CleanAnswers(pas, url);
      var correct := CorrectAnswers(pas, url);
      CorrectAnswersEmpty(pas, url);
      if t == Radio && |correct| == 0 then Failure(NoCorrectAnswer)
      else
        Success(Some(QuestionData(
          id := IntToString(rec.question.id),
          question := Clean(url, rec.question.content),
          questionType := spec.questionType,
          allAnswers := if t == Radio || t == MultipleSelect then Some(all) else None,
          answerField := spec.answerField,
          answer := if t == Radio then VStr(correct[0]) else VStrs(correct),
          difficultyLevel := rec.question.difficultyLevel)))
  }

  /**
   * The whole loop: the questions in record order, or the first IndexError,
   * which propagates out of `question_list`.
   */
  function ConvertAll(info: seq<RawRecord>, url: string): Result<seq<QuestionData>, ConvertError>
  {
    if info == [] then Success([])
    else
      match ConvertAll(info[..|info| - 1], url)
      case Failure(e) => Failure(e)
      case Success(qs) =>
        match ConvertRecord(info[|info| - 1], url)
        case Failure(e) => Failure(e)
        case Success(None) => Success(qs)
        case Success(Some(q)) => Success(qs + [q])
  }

  /** The inner loop at l.65-71: every answer rewritten, and the correct ones collected in order. */
  method RewriteAnswers(pas: seq<RawAnswer>, url: string) returns (all: seq<string>, correct: seq<string>)
    ensures all == CleanAnswers(pas, url)
    ensures correct == CorrectAnswers(pas, url)
  {
    all, correct := [], [];
    for i := 0 to |pas|
      invariant all == CleanAnswers(pas[..i], url)
      invariant correct == CorrectAnswers(pas[..i], url)
    {
      var v := Clean(url, pas[i].content);
      CleanAnswersStep(pas, url, i);
      CorrectAnswersStep(pas, url, i);
      all := all + [v];
      if pas[i].isCorrect {
        correct := correct + [v];
      }
    }
    assert pas[..|pas|] == pas;
  }

  lemma CleanAnswersStep(pas: seq<RawAnswer>, url: string, i: nat)
    requires i < |pas|
    ensures CleanAnswers(pas[..i + 1], url) == CleanAnswers(pas[..i], url) + [Clean(url, pas[i].content)]
  {
    var a, b := CleanAnswers(pas[..i + 1], url), CleanAnswers(pas[..i], url) + [Clean(url, pas[i].content)];
    forall k | 0 <= k < i + 1 ensures a[k] == b[k] {
      if k < i {
        assert pas[..i + 1][k] == pas[..i][k];
      } else {
        assert pas[..i + 1][k] == pas[i];
      }
    }
  }

  lemma CorrectAnswersStep(pas: seq<RawAnswer>, url: string, i: nat)
    requires i < |pas|
    ensures CorrectAnswers(pas[..i + 1], url) ==
      CorrectAnswers(pas[..i], url) + (if pas[i].isCorrect then [Clean(url, pas[i].content)] else [])
  {
    var all := CleanAnswers(pas[..i + 1], url);
    var mask := CorrectMask(pas[..i + 1]);
    CleanAnswersStep(pas, url, i);
    assert all[..i] == CleanAnswers(pas[..i], url);
    assert mask[..i] == CorrectMask(pas[..i]);
  }

  /** `question_list` after the fetch: the loop over the decoded records. */
  method QuestionList(info: seq<RawRecord>, url: string) returns (r: Result<seq<QuestionData>, ConvertError>)
    ensures r == ConvertAll(info, url)
  {
    var levels: seq<QuestionData> := [];
    var i := 0;
    while i < |info|
      invariant 0 <= i <= |info|
      invariant ConvertAll(info[..i], url) == Success(levels)
    {
      var rec := info[i];
      assert info[..i + 1][..i] == info[..i];
      var pas := rec.possibleAnswers;
      if |pas| == 0 {
        ConvertAllStops(info, i, url);
        return Failure(NoPossibleAnswers);
      }
      if pas[0].questionId !in Denylist && rec.success {
        var t := rec.question.answerType;
        if t in AnswerTypeKey {
          var spec := AnswerTypeKey[t];
          var possible, correct := RewriteAnswers(pas, url);
          var answer: Value;
          if t == Radio {
            if |correct| == 0 {
              CorrectAnswersEmpty(pas, url);
              ConvertAllStops(info, i, url);
              return Failure(NoCorrectAnswer);
            }
            answer := VStr(correct[0]);
          } else {
            answer := VStrs(correct);
          }
          var q := QuestionData(
            id := IntToString(rec.question.id),
            question := Clean(url, rec.question.content),
            questionType := spec.questionType,
            allAnswers := if t == Radio || t == MultipleSelect then Some(possible) else None,
            answerField := spec.answerField,
            answer := answer,
            difficultyLevel := rec.question.difficultyLevel);
          levels := levels + [q];
        }
      }
      i := i + 1;
    }
    assert info[..i] == info;
    r := Success(levels);
  }

  /** Once a record fails, converting any longer prefix fails with the same error. */
  lemma {:induction false} ConvertAllStops(info: seq<RawRecord>, i: nat, url: string)
    requires i < |info|
    requires ConvertAll(info[..i], url).Success?
    requires ConvertRecord(info[i], url).Failure?
    ensures ConvertAll(info, url) == Failure(ConvertRecord(info[i], url).error)
    decreases |info|
  {
    if i + 1 == |info| {
      assert info[..|info| - 1] == info[..i];
    } else {
      assert info[..|info| - 1][..i] == info[..i];
      assert info[..|info| - 1][i] == info[i];
      ConvertAllStops(info[..|info| - 1], i, url);
    }
  }

  /** The keys of the dict built for a question of answer type t (l.58-79). */
  function FieldsFor(t: string): set<string>
    requires t in AnswerTypeKey
  {
    {"id", "question", "type", AnswerTypeKey[t].answerField, "difficulty_level"} +
    (if t == Radio || t == MultipleSelect then {AllAnswersField} else {})
  }

  /**
   * The shape of a produced question dict: its id is the printed question id,
   * its type and answer field come from ANSWER_TYPE_KEY, all_answers is there
   * only for radio and multiple_select, and the difficulty is copied.
   */
  lemma ConvertedFields(rec: RawRecord, url: string, q: QuestionData)
    requires ConvertRecord(rec, url) == Success(Some(q))
    ensures var t := rec.question.answerType;
      && t in AnswerTypeKey
      && AsDict(q).Keys == FieldsFor(t)
      && AsDict(q)["id"] == VStr(IntToString(rec.question.id))
      && AsDict(q)["question"] == VStr(Clean(url, rec.question.content))
      && AsDict(q)["type"] == VStr(AnswerTypeKey[t].questionType)
      && AsDict(q)["difficulty_level"] == VInt(rec.question.difficultyLevel)
      && q.answerField == AnswerTypeKey[t].answerField
      && (t == Radio || t == MultipleSelect ==>
            AnswerTypeKey[t].allField == Some(AllAnswersField) &&
            AsDict(q)[AllAnswersField] == VStrs(CleanAnswers(rec.possibleAnswers, url)))
  {
  }

  /** The correct answers are a subsequence of all the rewritten answers. */
  lemma CorrectIsSubsequence(pas: seq<RawAnswer>, url: string)
    ensures IsSubsequence(CorrectAnswers(pas, url), CleanAnswers(pas, url))
  {
    SelectIsSubsequence(CleanAnswers(pas, url), CorrectMask(pas));
  }

  /**
   * What a produced question stores under its answer field: for radio the
   * first answer marked correct, otherwise the list of all answers marked
   * correct.
   */
  lemma StoredAnswer(rec: RawRecord, url: string, q: QuestionData)
    requires ConvertRecord(rec, url) == Success(Some(q))
    ensures var pas := rec.possibleAnswers;
      if rec.question.answerType == Radio then
        exists i | 0 <= i < |pas| ::
          pas[i].isCorrect && (forall j | 0 <= j < i :: !pas[j].isCorrect) &&
          q.answer == VStr(Clean(url, pas[i].content))
      else
        q.answer == VStrs(CorrectAnswers(pas, url))
  {
    var pas := rec.possibleAnswers;
    if rec.question.answerType == Radio {
      var i := FirstCorrect(pas);
      SelectFirst(CleanAnswers(pas, url), CorrectMask(pas), i);
    }
  }

  /** The index of the first answer marked correct. */
  function FirstCorrect(pas: seq<RawAnswer>): (i: nat)
    requires HasCorrect(pas)
    ensures i < |pas| && pas[i].isCorrect
    ensures forall j | 0 <= j < i :: !pas[j].isCorrect
  {
    if pas[0].isCorrect then 0
    else
      assert HasCorrect(pas[1..]) by {
        var k :| 0 <= k < |pas| && pas[k].isCorrect;
        assert pas[1..][k - 1].isCorrect;
      }
      1 + FirstCorrect(pas[1..])
  }

  /**
   * Converting records batch by batch and concatenating the results is
   * converting the concatenated records; a failure in the first part wins.
   */
  lemma {:induction false} ConvertAllAppend(a: seq<RawRecord>, b: seq<RawRecord>, url: string)
    ensures ConvertAll(a + b, url) ==
      match ConvertAll(a, url)
      case Failure(e) => Failure(e)
      case Success(x) =>
        match ConvertAll(b, url)
        case Failure(e) => Failure(e)
        case Success(y) => Success(x + y)
    decreases |b|
  {
    if b == [] {
      assert a + b == a;
      assert ConvertAll(b, url) == Success([]);
      if ConvertAll(a, url).Success? {
        assert ConvertAll(a, url).value + [] == ConvertAll(a, url).value;
      }
    } else {
      var ab := a + b;
      assert ab[..|ab| - 1] == a + b[..|b| - 1];
      assert ab[|ab| - 1] == b[|b| - 1];
      ConvertAllAppend(a, b[..|b| - 1], url);
      match ConvertAll(a, url)
      case Failure(e) =>
      case Success(x) =>
        match ConvertAll(b[..|b| - 1], url)
        case Failure(e) =>
        case Success(y) =>
          match ConvertRecord(b[|b| - 1], url)
          case Failure(e) =>
          case Success(None) =>
          case Success(Some(q)) =>
            assert (x + y) + [q] == x + (y + [q]);
    }
  }

  /** A batch converts without error exactly when every record does. */
  lemma {:induction false} ConvertAllSucceeds(info: seq<RawRecord>, url: string)
    ensures ConvertAll(info, url).Success? <==> forall i | 0 <= i < |info| :: ConvertRecord(info[i], url).Success?
    decreases |info|
  {
    if info != [] {
      var init := info[..|info| - 1];
      ConvertAllSucceeds(init, url);
      assert forall i | 0 <= i < |init| :: init[i] == info[i];
    }
  }

  /** The questions of a converted batch are exactly the ones its admitted records produce. */
  lemma {:induction false} ConvertAllMembers(info: seq<RawRecord>, url: string, q: QuestionData)
    requires ConvertAll(info, url).Success?
    ensures q in ConvertAll(info, url).value <==>
      exists i | 0 <= i < |info| :: ConvertRecord(info[i], url) == Success(Some(q))
    decreases |info|
  {
    if info != [] {
      var init := info[..|info| - 1];
      var last := info[|info| - 1];
      var outs := ConvertAll(info, url).value;
      var qs := ConvertAll(init, url).value;
      var one := ConvertRecord(last, url);
      ConvertAllMembers(init, url, q);
      assert outs == if one.value.Some? then qs + [one.value.value] else qs;
      assert q in outs <==> q in qs || one == Success(Some(q));
      assert forall i | 0 <= i < |init| :: init[i] == info[i];
    }
  }
}

=== FILE: seqs.dfy ===
/**
 * Sequence operations the pipeline uses: `itertools.chain` (Flatten),
 * keeping the items a mask selects, and Python's stable `sorted(..., key=...)`
 * on string keys.
 */
module Seqs {
  import opened PyStr

  /** `list(itertools.chain(*ss))`. */
  function Flatten<T>(ss: seq<seq<T>>): seq<T>
  {
    if ss == [] then [] else ss[0] + Flatten(ss[1..])
  }

  lemma {:induction false} FlattenAppend<T>(a: seq<seq<T>>, b: seq<seq<T>>)
    ensures Flatten(a + b) == Flatten(a) + Flatten(b)
  {
    if a != [] {
      assert (a + b)[1..] == a[1..] + b;
      FlattenAppend(a[1..], b);
    } else {
      assert a + b == b;
    }
  }

  lemma FlattenSnoc<T>(a: seq<seq<T>>, s: seq<T>)
    ensures Flatten(a + [s]) == Flatten(a) + s
  {
    FlattenAppend(a, [s]);
    assert Flatten([s]) == s + Flatten([s][1..]);
  }

  /** The items of s whose mask bit is set, in their original order. */
  function Select<T>(s: seq<T>, mask: seq<bool>): (r: seq<T>)
    requires |mask| == |s|
    ensures |r| <= |s|
  {
    if s == [] then []
    else Select(s[..|s| - 1], mask[..|s| - 1]) + (if mask[|s| - 1] then [s[|s| - 1]] else [])
  }

  /** a can be obtained from b by deleting items. */
  ghost predicate IsSubsequence<T>(a: seq<T>, b: seq<T>)
  {
    exists idx: seq<nat> ::
      |idx| == |a| &&
      (forall k :: 0 <= k < |idx| ==> idx[k] < |b| && b[idx[k]] == a[k]) &&
      (forall k, l :: 0 <= k < l < |idx| ==> idx[k] < idx[l])
  }

  /** Positions of the set bits of a mask, ascending. */
  function TruePositions(mask: seq<bool>): (idx: seq<nat>)
    ensures forall k :: 0 <= k < |idx| ==> idx[k] < |mask| && mask[idx[k]]
    ensures forall k, l :: 0 <= k < l < |idx| ==> idx[k] < idx[l]
    ensures forall i :: 0 <= i < |mask| && mask[i] ==> i in idx
  {
    if mask == [] then []
    else TruePositions(mask[..|mask| - 1]) + (if mask[|mask| - 1] then [|mask| - 1] else [])
  }

  lemma {:induction false} SelectAt<T>(s: seq<T>, mask: seq<bool>)
    requires |mask| == |s|
    ensures |Select(s, mask)| == |TruePositions(mask)|
    ensures forall k :: 0 <= k < |Select(s, mask)| ==> Select(s, mask)[k] == s[TruePositions(mask)[k]]
  {
    if s != [] {
      SelectAt(s[..|s| - 1], mask[..|s| - 1]);
    }
  }

  /** Selecting by a mask keeps a subsequence. */
  lemma SelectIsSubsequence<T>(s: seq<T>, mask: seq<bool>)
    requires |mask| == |s|
    ensures IsSubsequence(Select(s, mask), s)
  {
    SelectAt(s, mask);
    var idx := TruePositions(mask);
    assert |idx| == |Select(s, mask)|;
  }

  /** The first selected item is the item at the first set bit. */
  lemma SelectFirst<T>(s: seq<T>, mask: seq<bool>, i: nat)
    requires |mask| == |s| && i < |s| && mask[i]
    requires forall j :: 0 <= j < i ==> !mask[j]
    ensures |Select(s, mask)| > 0 && Select(s, mask)[0] == s[i]
  {
    SelectAt(s, mask);
    var idx := TruePositions(mask);
    assert i in idx;
    var k :| 0 <= k < |idx| && idx[k] == i;
  }

  /** An item is selected iff its bit is set. */
  lemma SelectMembership<T>(s: seq<T>, mask: seq<bool>)
    requires |mask| == |s|
    ensures |Select(s, mask)| == 0 <==> forall i :: 0 <= i < |mask| ==> !mask[i]
  {
    SelectAt(s, mask);
    var idx := TruePositions(mask);
    if exists i :: 0 <= i < |mask| && mask[i] {
      var i :| 0 <= i < |mask| && mask[i];
      assert i in idx;
    }
  }

  /** The order `sorted(..., key=key)` produces. */
  ghost predicate SortedBy<T>(s: seq<T>, key: T -> string)
  {
    forall i, j :: 0 <= i < j < |s| ==> StrLe(key(s[i]), key(s[j]))
  }

  /** The items of s whose key is k, in their order in s. */
  function WithKey<T>(s: seq<T>, key: T -> string, k: string): seq<T>
  {
    if s == [] then [] else (if key(s[0]) == k then [s[0]] else []) + WithKey(s[1..], key, k)
  }

  /** Put x before the first item whose key is not smaller than its own. */
  function Insert<T>(x: T, s: seq<T>, key: T -> string): (r: seq<T>)
    ensures |r| == |s| + 1
  {
    if s == [] || StrLe(key(x), key(s[0])) then [x] + s else [s[0]] + Insert(x, s[1..], key)
  }

  /**
   * Python's `sorted(s, key=key)`: a stable sort. Inserting each item in
   * front of the sorted rest, before the items with an equal key, keeps
   * equal keys in their original order.
   */
  function SortBy<T>(s: seq<T>, key: T -> string): (r: seq<T>)
    ensures |r| == |s|
  {
    if s == [] then [] else Insert(s[0], SortBy(s[1..], key), key)
  }

  lemma {:induction false} InsertMultiset<T>(x: T, s: seq<T>, key: T -> string)
    ensures multiset(Insert(x, s, key)) == multiset(s) + multiset{x}
  {
    if s != [] && !StrLe(key(x), key(s[0])) {
      InsertMultiset(x, s[1..], key);
      assert s == [s[0]] + s[1..];
    }
  }

  lemma {:induction false} InsertSorted<T>(x: T, s: seq<T>, key: T -> string)
    requires SortedBy(s, key)
    ensures SortedBy(Insert(x, s, key), key)
  {
    if s == [] {
    } else if StrLe(key(x), key(s[0])) {
      var r := [x] + s;
      forall i, j | 0 <= i < j < |r| ensures StrLe(key(r[i]), key(r[j])) {
        if i == 0 {
          if j > 1 { StrLeTransitive(key(x), key(s[0]), key(s[j - 1])); }
        }
      }
    } else {
      StrLeTotal(key(x), key(s[0]));
      InsertSorted(x, s[1..], key);
      InsertMultiset(x, s[1..], key);
      var rest := Insert(x, s[1..], key);
      var r := [s[0]] + rest;
      forall i, j | 0 <= i < j < |r| ensures StrLe(key(r[i]), key(r[j])) {
        if i == 0 {
          var y := rest[j - 1];
          assert y in multiset(rest);
          assert y in multiset(s[1..]) + multiset{x};
          if y == x {
          } else {
            assert y in s[1..];
            var m :| 0 <= m < |s[1..]| && s[1..][m] == y;
            assert s[m + 1] == y;
          }
        }
      }
    }
  }

  lemma {:induction false} InsertWithKey<T>(x: T, s: seq<T>, key: T -> string, k: string)
    ensures WithKey(Insert(x, s, key), key, k) == (if key(x) == k then [x] else []) + WithKey(s, key, k)
  {
    if s == [] || StrLe(key(x), key(s[0])) {
      assert ([x] + s)[0] == x && ([x] + s)[1..] == s;
    } else {
      StrLeReflexive(key(x));
      assert key(s[0]) != key(x);
      var rest := Insert(x, s[1..], key);
      InsertWithKey(x, s[1..], key, k);
      assert ([s[0]] + rest)[0] == s[0] && ([s[0]] + rest)[1..] == rest;
      assert WithKey(s, key, k) == (if key(s[0]) == k then [s[0]] else []) + WithKey(s[1..], key, k);
      if key(x) == k {
        assert WithKey([s[0]] + rest, key, k) == WithKey(rest, key, k);
      } else {
        assert WithKey(rest, key, k) == WithKey(s[1..], key, k);
      }
    }
  }

  /** The sort puts the items in ascending key order. */
  lemma {:induction false} SortByIsSorted<T>(s: seq<T>, key: T -> string)
    ensures SortedBy(SortBy(s, key), key)
  {
    if s != [] {
      SortByIsSorted(s[1..], key);
      InsertSorted(s[0], SortBy(s[1..], key), key);
    }
  }

  /** The sort neither drops nor duplicates items. */
  lemma {:induction false} SortByPermutes<T>(s: seq<T>, key: T -> string)
    ensures multiset(SortBy(s, key)) == multiset(s)
  {
    if s != [] {
      SortByPermutes(s[1..], key);
      InsertMultiset(s[0], SortBy(s[1..], key), key);
      assert s == [s[0]] + s[1..];
    }
  }

  /** The sort is stable: the items sharing a key keep their relative order. */
  lemma {:induction false} SortByStable<T>(s: seq<T>, key: T -> string, k: string)
    ensures WithKey(SortBy(s, key), key, k) == WithKey(s, key, k)
  {
    if s != [] {
      SortByStable(s[1..], key, k);
      InsertWithKey(s[0], SortBy(s[1..], key), key, k);
    }
  }

  lemma SortByMembership<T>(s: seq<T>, key: T -> string, x: T)
    ensures x in SortBy(s, key) <==> x in s
  {
    SortByPermutes(s, key);
    assert x in SortBy(s, key) <==> x in multiset(SortBy(s, key));
    assert x in s <==> x in multiset(s);
  }

  /** `[x for x in s if keep(x)]`. */
  function KeepWhere<T>(s: seq<T>, keep: T -> bool): (r: seq<T>)
    ensures |r| <= |s|
    ensures forall x | x in r :: x in s && keep(x)
  {
    if s == [] then []
    else KeepWhere(s[..|s| - 1], keep) + (if keep(s[|s| - 1]) then [s[|s| - 1]] else [])
  }

  lemma {:induction false} KeepWhereMembership<T>(s: seq<T>, keep: T -> bool, x: T)
    ensures x in KeepWhere(s, keep) <==> x in s && keep(x)
  {
    if s != [] {
      KeepWhereMembership(s[..|s| - 1], keep, x);
      assert s == s[..|s| - 1] + [s[|s| - 1]];
    }
  }

  /** Filtering keeps the order of what it keeps. */
  lemma {:induction false} KeepWhereSorted<T>(s: seq<T>, keep: T -> bool, key: T -> string)
    requires SortedBy(s, key)
    ensures SortedBy(KeepWhere(s, keep), key)
  {
    if s != [] {
      var init := s[..|s| - 1];
      var x := s[|s| - 1];
      assert SortedBy(init, key);
      KeepWhereSorted(init, keep, key);
      var r := KeepWhere(s, keep);
      if keep(x) {
        forall i, j | 0 <= i < j < |r| ensures StrLe(key(r[i]), key(r[j])) {
          if j == |r| - 1 {
            KeepWhereMembership(init, keep, r[i]);
            var m :| 0 <= m < |init| && init[m] == r[i];
            assert s[m] == r[i];
          }
        }
      }
    }
  }
}

=== FILE: topics.dfy ===
/**
 * Topics and the topic tree: filling a topic with its levels
 * (magogenie.py:134-166) and `build_magogenie_tree` (magogenie.py:184-197),
 * which links each topic into its parent's children in place.
 */
module Topics {
  import opened Wrappers
  import opened Seqs
  import opened Chunking
  import opened Records
  import opened Levels
  import opened Exercises

  /** An entry of a topic's `children`: a level exercise or a sub-topic (the same object, shared). */
  datatype Child = Exercise(level: Level) | SubTopic(topic: Topic)

  /** The topic dict built at l.125-133; only its `children` list is changed afterwards. */
  class Topic {
    const id: string
    const ancestry: Option<string>
    const title: string
    const license: string
    const masteryModel: string
    var children: seq<Child>

    constructor (id: string, ancestry: Option<string>, title: string)
      ensures this.id == id && this.ancestry == ancestry && this.title == title
      ensures license == CcByNcSa && masteryModel == MOfN
      ensures children == []
    {
      this.id := id;
      this.ancestry := ancestry;
      this.title := title;
      license := CcByNcSa;
      masteryModel := MOfN;
      children := [];
    }

    /** The loop at l.164-165: each level is appended to the children. */
    method AddLevels(groups: seq<Level>)
      modifies this
      ensures children == old(children) + AsExercises(groups)
    {
      for k := 0 to |groups|
        invariant children == old(children) + AsExercises(groups[..k])
      {
        assert AsExercises(groups[..k + 1]) == AsExercises(groups[..k]) + [Exercise(groups[k])];
        children := children + [Exercise(groups[k])];
      }
      assert groups[..|groups|] == groups;
    }
  }

  function AsExercises(groups: seq<Level>): (r: seq<Child>)
    ensures |r| == |groups|
  {
    seq(|groups|, k requires 0 <= k < |groups| => Exercise(groups[k]))
  }

  function AsSubTopics(ts: seq<Topic>): (r: seq<Child>)
    ensures |r| == |ts|
  {
    seq(|ts|, k requires 0 <= k < |ts| => SubTopic(ts[k]))
  }

  // ---------------------------------------------------------------------
  // Filling a topic with its questions (l.134-166)

  /**
   * The decoded response of the question endpoint for one batch of ids. The
   * HTTP request is not modelled: it is this function, given by the caller.
   */
  type Fetch = seq<int> -> seq<RawRecord>

  /** The responses for all the batches of ids, in batch order. */
  function FetchAll(ids: seq<int>, fetch: Fetch): (r: seq<seq<RawRecord>>)
    ensures |r| == |Chunks(ids)|
  {
    var chunks := Chunks(ids);
    seq(|chunks|, k requires 0 <= k < |chunks| => fetch(chunks[k]))
  }

  /** `p.map(question_list, ...)` run in order: the converted batches, or the first error. */
  function ConvertBatches(batches: seq<seq<RawRecord>>, url: string): Result<seq<seq<QuestionData>>, ConvertError>
  {
    if batches == [] then Success([])
    else
      match ConvertBatches(batches[..|batches| - 1], url)
      case Failure(e) => Failure(e)
      case Success(done) =>
        match ConvertAll(batches[|batches| - 1], url)
        case Failure(e) => Failure(e)
        case Success(qs) => Success(done + [qs])
  }

  /** `itertools.chain` of the converted batches of a topic's ids. */
  function CollectQuestions(ids: seq<int>, fetch: Fetch, url: string): Result<seq<QuestionData>, ConvertError>
  {
    match ConvertBatches(FetchAll(ids, fetch), url)
    case Failure(e) => Failure(e)
    case Success(bs) => Success(Flatten(bs))
  }

  /** The levels of a topic: its questions sorted by string id (l.149), then grouped. */
  function TopicLevels(qs: seq<QuestionData>): seq<Level>
  {
    Grouped(SortBy(qs, QuestionKey))
  }

  /** Converting batch by batch is converting all the fetched records at once. */
  lemma {:induction false} ConvertBatchesFlatten(batches: seq<seq<RawRecord>>, url: string)
    ensures ConvertAll(Flatten(batches), url) ==
      match ConvertBatches(batches, url)
      case Failure(e) => Failure(e)
      case Success(bs) => Success(Flatten(bs))
    decreases |batches|
  {
    if batches != [] {
      var init := batches[..|batches| - 1];
      var last := batches[|batches| - 1];
      ConvertBatchesFlatten(init, url);
      assert batches == init + [last];
      FlattenSnoc(init, last);
      ConvertAllAppend(Flatten(init), last, url);
      match ConvertBatches(init, url)
      case Failure(e) =>
      case Success(done) =>
        match ConvertAll(last, url)
        case Failure(e) =>
        case Success(qs) =>
          FlattenSnoc(done, qs);
    }
  }

  /**
   * Converting a topic's batches one by one and chaining the results is
   * converting all the records fetched for it at once, in batch order.
   */
  lemma CollectIsConvertAll(ids: seq<int>, fetch: Fetch, url: string)
    ensures CollectQuestions(ids, fetch, url) == ConvertAll(Flatten(FetchAll(ids, fetch)), url)
  {
    ConvertBatchesFlatten(FetchAll(ids, fetch), url);
  }

  /**
   * What the levels of a topic promise: every collected question is in
   * exactly one level, the one named after its difficulty; level ids are
   * distinct; each level lists its questions in ascending string-id order;
   * and together the levels hold exactly the collected questions.
   */
  lemma TopicLevelsSpec(qs: seq<QuestionData>)
    ensures var g := TopicLevels(qs);
      && (forall q | q in qs :: exists k | 0 <= k < |g| :: g[k].id == LevelName(q.difficultyLevel) && q in g[k].questions)
      && (forall q, k | q in qs && 0 <= k < |g| :: q in g[k].questions ==> g[k].id == LevelName(q.difficultyLevel))
      && (forall k, l | 0 <= k < l < |g| :: g[k].id != g[l].id)
      && (forall k | 0 <= k < |g| :: SortedBy(g[k].questions, QuestionKey))
      && multiset(LevelQuestions(g)) == multiset(qs)
  {
    var sorted := SortBy(qs, QuestionKey);
    var g := TopicLevels(qs);
    SortByIsSorted(qs, QuestionKey);
    SortByPermutes(qs, QuestionKey);
    GroupedSorted(sorted);
    GroupedPartition(sorted);
    forall q | q in qs
      ensures exists k | 0 <= k < |g| :: g[k].id == LevelName(q.difficultyLevel) && q in g[k].questions
      ensures forall k | 0 <= k < |g| :: q in g[k].questions ==> g[k].id == LevelName(q.difficultyLevel)
    {
      SortByMembership(qs, QuestionKey, q);
      GroupOfQuestion(sorted, q);
    }
    if |sorted| > 0 {
      GroupOfQuestion(sorted, sorted[0]);
    }
  }

  /**
   * l.134-166 for one topic: when it has question ids, fetch and convert
   * them in batches of six, sort the questions by id, group them by
   * difficulty and append the levels to the topic's children. An error in
   * any batch propagates and the topic is left as it was.
   */
  method FillTopic(topic: Topic, ids: seq<int>, fetch: Fetch, url: string) returns (r: Result<seq<Level>, ConvertError>)
    modifies topic
    ensures r.Failure? <==> CollectQuestions(ids, fetch, url).Failure?
    ensures r.Failure? ==> r.error == CollectQuestions(ids, fetch, url).error && topic.children == old(topic.children)
    ensures r.Success? ==>
      && r.value == TopicLevels(CollectQuestions(ids, fetch, url).value)
      && topic.children == old(topic.children) + AsExercises(r.value)
  {
    if |ids| == 0 {
      assert FetchAll(ids, fetch) == [];
      return Success([]);
    }
    var chunks := Chunks(ids);
    var responses := FetchAll(ids, fetch);
    var batches: seq<seq<QuestionData>> := [];
    for k := 0 to |chunks|
      invariant ConvertBatches(responses[..k], url) == Success(batches)
      invariant topic.children == old(topic.children)
    {
      assert responses[..k + 1][..k] == responses[..k];
      var res := QuestionList(fetch(chunks[k]), url);
      if res.Failure? {
        BatchFailureStops(responses, k, url);
        return Failure(res.error);
      }
      batches := batches + [res.value];
    }
    assert responses[..|chunks|] == responses;
    var newlist := Flatten(batches);
    var sorted := SortBy(newlist, QuestionKey);
    var groups := GroupByLevel(sorted);
    topic.AddLevels(groups);
    r := Success(groups);
  }

  lemma {:induction false} BatchFailureStops(batches: seq<seq<RawRecord>>, k: nat, url: string)
    requires k < |batches|
    requires ConvertBatches(batches[..k], url).Success?
    requires ConvertAll(batches[k], url).Failure?
    ensures ConvertBatches(batches, url) == Failure(ConvertAll(batches[k], url).error)
    decreases |batches|
  {
    var init := batches[..|batches| - 1];
    if k + 1 == |batches| {
      assert init == batches[..k];
    } else {
      assert init[..k] == batches[..k];
      assert init[k] == batches[k];
      BatchFailureStops(init, k, url);
    }
  }

  // ---------------------------------------------------------------------
  // build_magogenie_tree (l.184-197)

  /** The sort key of l.186. */
  function TopicKey(t: Topic): string
  {
    t.id
  }

  /** Some topic of ts has id k. */
  predicate HasId(ts: seq<Topic>, k: string)
  {
    exists i | 0 <= i < |ts| :: ts[i].id == k
  }

  /** `dict((str(topic['id']), topic) for topic in topics)`: for a repeated id the later topic wins. */
  function IdIndex(ts: seq<Topic>): (m: map<string, Topic>)
    ensures forall k :: k in m <==> HasId(ts, k)
    ensures forall k | k in m :: m[k] in ts && m[k].id == k
  {
    if ts == [] then map[]
    else
      var init := ts[..|ts| - 1];
      var t := ts[|ts| - 1];
      var m := IdIndex(init);
      assert forall k :: HasId(ts, k) <==> HasId(init, k) || k == t.id by {
        forall k | HasId(init, k)
          ensures HasId(ts, k)
        {
          var i :| 0 <= i < |init| && init[i].id == k;
          assert ts[i] == init[i];
        }
        forall k | HasId(ts, k) && k != t.id
          ensures HasId(init, k)
        {
          var i :| 0 <= i < |ts| && ts[i].id == k;
          assert init[i] == ts[i];
        }
      }
      assert forall k | k in m :: m[k] in ts by {
        forall k | k in m ensures m[k] in ts {
          var i :| 0 <= i < |init| && init[i] == m[k];
          assert ts[i] == init[i];
        }
      }
      m[t.id := t]
  }

  /** The index maps an id to the last topic carrying it. */
  lemma {:induction false} IdIndexLast(ts: seq<Topic>, j: nat)
    requires j < |ts|
    requires forall i | j < i < |ts| :: ts[i].id != ts[j].id
    ensures IdIndex(ts)[ts[j].id] == ts[j]
  {
    if j < |ts| - 1 {
      var init := ts[..|ts| - 1];
      assert init[j] == ts[j];
      assert forall i | j < i < |init| :: init[i] == ts[i];
      IdIndexLast(init, j);
    }
  }

  /** The parent l.190-191 finds for t: the topic its ancestry names, when that id is in the batch. */
  function ParentOf(t: Topic, index: map<string, Topic>): Option<Topic>
  {
    if t.ancestry.Some? && t.ancestry.value in index then Some(index[t.ancestry.value]) else None
  }

  /** The topics, in the order of ts, that the loop at l.189-193 appends to p. */
  function Adopted(ts: seq<Topic>, index: map<string, Topic>, p: Topic): (r: seq<Topic>)
    ensures forall t | t in r :: t in ts && ParentOf(t, index) == Some(p)
  {
    KeepWhere(ts, t => ParentOf(t, index) == Some(p))
  }

  predicate IsRoot(t: Topic)
  {
    t.ancestry.None?
  }

  /** The comprehension at l.195. */
  function Roots(ts: seq<Topic>): seq<Topic>
  {
    KeepWhere(ts, IsRoot)
  }

  /**
   * `build_magogenie_tree`: sort the topics by id, then append each topic
   * whose ancestry names a topic of the batch to that topic's children, and
   * return the topics without ancestry. The children lists are changed in
   * place and the appended topics are shared, not copied.
   */
  method BuildTree(topics: seq<Topic>) returns (roots: seq<Topic>)
    modifies set t | t in topics
    ensures var sorted := SortBy(topics, TopicKey);
      && roots == Roots(sorted)
      && forall p | p in topics ::
           p.children == old(p.children) + AsSubTopics(Adopted(sorted, IdIndex(sorted), p))
  {
    var tpo := SortBy(topics, TopicKey);
    var topicDict := IdIndex(tpo);
    for i := 0 to |tpo|
      invariant forall p | p in topics ::
        p.children == old(p.children) + AsSubTopics(Adopted(tpo[..i], topicDict, p))
    {
      var topic := tpo[i];
      if topic.ancestry.Some? && topic.ancestry.value in topicDict {
        var parent := topicDict[topic.ancestry.value];
        SortByMembership(topics, TopicKey, parent);
        parent.children := parent.children + [SubTopic(topic)];
      }
      forall p | p in topics
        ensures p.children == old(p.children) + AsSubTopics(Adopted(tpo[..i + 1], topicDict, p))
      {
        AdoptedStep(tpo, i, topicDict, p);
      }
    }
    assert tpo[..|tpo|] == tpo;
    roots := Roots(tpo);
  }

  /** One step of the loop at l.189-193, as seen from a parent p. */
  lemma AdoptedStep(ts: seq<Topic>, i: nat, index: map<string, Topic>, p: Topic)
    requires i < |ts|
    ensures AsSubTopics(Adopted(ts[..i + 1], index, p)) ==
      AsSubTopics(Adopted(ts[..i], index, p)) + (if ParentOf(ts[i], index) == Some(p) then [SubTopic(ts[i])] else [])
  {
    assert ts[..i + 1][..i] == ts[..i];
  }

  lemma HasIdSorted(topics: seq<Topic>, k: string)
    ensures HasId(SortBy(topics, TopicKey), k) <==> HasId(topics, k)
  {
    var sorted := SortBy(topics, TopicKey);
    if HasId(topics, k) {
      var i :| 0 <= i < |topics| && topics[i].id == k;
      SortByMembership(topics, TopicKey, topics[i]);
      var j :| 0 <= j < |sorted| && sorted[j] == topics[i];
    }
    if HasId(sorted, k) {
      var i :| 0 <= i < |sorted| && sorted[i].id == k;
      SortByMembership(topics, TopicKey, sorted[i]);
      var j :| 0 <= j < |topics| && topics[j] == sorted[i];
    }
  }

  /** The result of the tree build is exactly the topics without ancestry, in ascending string-id order. */
  lemma RootsSpec(topics: seq<Topic>)
    ensures var roots := Roots(SortBy(topics, TopicKey));
      && (forall t :: t in roots <==> t in topics && t.ancestry.None?)
      && SortedBy(roots, TopicKey)
  {
    var sorted := SortBy(topics, TopicKey);
    forall t ensures t in Roots(sorted) <==> t in topics && t.ancestry.None? {
      KeepWhereMembership(sorted, IsRoot, t);
      SortByMembership(topics, TopicKey, t);
    }
    SortByIsSorted(topics, TopicKey);
    KeepWhereSorted(sorted, IsRoot, TopicKey);
  }

  /**
   * A topic whose ancestry names a topic of the batch is appended to exactly
   * one parent, the topic the id index gives for that id (the last one with
   * it in sorted order), and is not a root.
   */
  lemma ParentLink(topics: seq<Topic>, t: Topic, a: string)
    requires t in topics && t.ancestry == Some(a) && HasId(topics, a)
    ensures var sorted := SortBy(topics, TopicKey); var index := IdIndex(sorted);
      && a in index && index[a] in topics && index[a].id == a
      && t in Adopted(sorted, index, index[a])
      && (forall p :: t in Adopted(sorted, index, p) ==> p == index[a])
      && t !in Roots(sorted)
  {
    var sorted := SortBy(topics, TopicKey);
    var index := IdIndex(sorted);
    HasIdSorted(topics, a);
    SortByMembership(topics, TopicKey, t);
    SortByMembership(topics, TopicKey, index[a]);
    forall p ensures t in Adopted(sorted, index, p) <==> p == index[a] {
      KeepWhereMembership(sorted, u => ParentOf(u, index) == Some(p), t);
    }
    RootsSpec(topics);
  }

  /** A topic whose ancestry names no topic of the batch ends up neither in the result nor under any parent. */
  lemma Orphan(topics: seq<Topic>, t: Topic, a: string)
    requires t in topics && t.ancestry == Some(a) && !HasId(topics, a)
    ensures var sorted := SortBy(topics, TopicKey); var index := IdIndex(sorted);
      && t !in Roots(sorted)
      && forall p :: t !in Adopted(sorted, index, p)
  {
    var sorted := SortBy(topics, TopicKey);
    var index := IdIndex(sorted);
    HasIdSorted(topics, a);
    forall p ensures t !in Adopted(sorted, index, p) {
      KeepWhereMembership(sorted, u => ParentOf(u, index) == Some(p), t);
    }
    RootsSpec(topics);
  }

  /** Each parent receives its new children in ascending string-id order. */
  lemma AdoptedSorted(topics: seq<Topic>, p: Topic)
    ensures var sorted := SortBy(topics, TopicKey);
      SortedBy(Adopted(sorted, IdIndex(sorted), p), TopicKey)
  {
    var sorted := SortBy(topics, TopicKey);
    var index := IdIndex(sorted);
    SortByIsSorted(topics, TopicKey);
    KeepWhereSorted(sorted, u => ParentOf(u, index) == Some(p), TopicKey);
  }
}

=== FILE: wrappers.dfy ===
/** Option and Result, the two failure-carrying shapes used throughout the model. */
module Wrappers {

  datatype Option<+T> = None | Some(value: T)

  /** A Python call that either returns a value or raises. */
  datatype Result<+R, +E> = Success(value: R) | Failure(error: E) {
    predicate IsFailure() {
      Failure?
    }

    function PropagateFailure<U>(): Result<U, E>
      requires Failure?
    {
      Failure(error)
    }

    function Extract(): R
      requires Success?
    {
      value
    }
  }
}
